=== FILE: README.md ===
# restapi: the generic table resource, modelled in Dafny

restapi exposes every table of a relational database as a REST resource.
At start-up it reflects the schema and sorts the table classes by name. It
builds one handler per table, bound to that table's single primary-key
column. It also serves an index listing every table. Each handler answers:

- GET (one row by key, or every row);
- POST (a batch insert under one commit);
- PUT (a partial update keyed by the payload's key field);
- DELETE (remove a row and reply with it).

Every reply is `{TableName: [rows]}`, where each row has been serialised:
str/int/float/bool values are kept and anything else becomes its `repr`.
A reply can also be rendered as `text/csv`. The header line is the first
row's keys in sorted order. Each row then gives one line of values in that
key order, joined by commas with no quoting.

The model puts the database behind pure functions:

- One table is a `Store`, a finite map from primary-key value to row. A row
  is a map from column name to `Value`.
- Every handler takes the store and returns an `Envelope` (the reply body).
  A write also returns the new store. Failures carry no store, so a failed
  request changes nothing.
- The storage engine's scan order for "all rows" is a parameter.
- So is its key allocator for inserts that give no key.
- `repr` is opaque: a non-primitive value carries its own text.

Modules, in dependency order:

| module | file | contents |
|---|---|---|
| `Wrappers` | wrappers.dfy | `Option`, `Result` and the error kinds |
| `Values` | values.dfy | column values, `convert`, and the `str`/`repr` texts |
| `Order` | order.dfy | Python string order, sorting by a key, and uniqueness of the sorted result |
| `Text` | text.dfy | `print(*xs, sep=…)` joining, `str.split`, and line output |
| `Schema` | schema.dfy | table metadata, `get_pk`, the table order, start-up and the index |
| `Serializer` | serializer.dfy | `serialize` |
| `Resource` | resource.dfy | `get_object`, and the GET, POST, PUT and DELETE handlers |
| `Laws` | laws.dfy | how one request's result shows up in later requests |
| `Csv` | csv.dfy | `output_csv` |

## Model

| member | source | states |
|---|---|---|
| Values.Convert | api.py:30-34 | The result is always a primitive value. A str/int/float/bool is returned unchanged. Anything else is replaced by the string of its repr. |
| Values.ConvertIdempotent | api.py:30-34 | Converting an already-converted value changes nothing, so serialised output is a fixed point of the serialiser. |
| Values.IntTextRoundTrip | api.py:129-130 | The decimal text `print` writes for an int field reads back as the same int. |
| Values.IntTextHasNoDelimiter | api.py:129-130 | An int field's text holds neither a comma nor a line break, so it cannot disturb the CSV layout. |
| Values.PrintedWithoutText | api.py:129-130 | The `str` of an int, a bool or None holds neither a comma nor a line break. |
| Order.SortBy | api.py:43 | The result is sorted by the key under Python's string order. It is a permutation of the input (same multiset, same length, same members). |
| Order.SortedUnique | api.py:43 | Two sorted arrangements of the same elements are equal when the sort key is injective. |
| Order.SortByPermutationInvariant | api.py:43 | With an injective key, sorting gives the same sequence whatever order the input came in. |
| Text.SplitJoin | api.py:127 | Splitting a comma-joined line at commas gives the fields back, provided no field holds a comma. |
| Text.SplitLines | api.py:127-130 | Splitting printed lines at line breaks gives the lines back plus one empty final piece, provided no line holds a break. |
| Schema.GetPk | api.py:17-21 | Succeeds exactly when the table has one primary-key column, and then returns that column. Any other count is a SchemaError naming the table. |
| Schema.TableOrder | api.py:43 | The table classes, sorted ascending by class name, as a permutation of what reflection listed. |
| Schema.MakeMetas | api.py:114-115 | Builds one metadata record per table, in order, each with that table's name, columns and key. Succeeds exactly when every table has one key column. Otherwise it fails with the SchemaError of the first table that does not. |
| Schema.DiscoverSpec | api.py:114-115 | Over the classes automap maps, the `get_pk` step of start-up succeeds exactly when every class has one key column. It then gives one handler per table, ascending by name. Each handler is bound to its table's columns and sole key, and the key is one of those columns. |
| Schema.Index | api.py:53-59 | One entry per table, in the given order: the table's name and its collection path `/<name>`. |
| Schema.IndexSpec | api.py:53-59 | The index has one entry per table and is sorted by name. It lists every table's `/<name>` entry and nothing else. |
| Schema.DiscoverDeterministic | api.py:43 | Start-up and the index depend only on which tables exist, not on the order reflection enumerates them. |
| Serializer.Serialize | api.py:29-36 | The serialised row's keys are exactly the table's columns, in column order. Primitive values are kept and the rest become `Str(repr)`. |
| Serializer.Lookup | api.py:129 | `row[key]` gives the first entry named `key`. It is absent exactly when no entry has that name. |
| Serializer.SerializeLookup | api.py:36 | Looking up a column in the serialised row gives the converted stored value. A name that is not a column is absent. |
| Serializer.SerializeInjectiveOnPrimitives | api.py:29-36 | Two rows holding only primitive values that serialise alike agree on every column, so serialising them loses nothing. |
| Resource.GetObject | api.py:69-73 | Gives the row stored under the key exactly when the key is stored. Otherwise the result is NotFound. |
| Resource.ListAll | api.py:79-80 | One serialised row per stored row, in the engine's scan order. Its length equals the number of stored rows. |
| Resource.Get | api.py:75-80 | With an id: succeeds exactly when the id is stored, replying `{Table: [serialize(row)]}`, and otherwise gives NotFound. Without an id: replies with every row in scan order. Neither case returns a store, so GET changes nothing. |
| Resource.GetListsEveryRow | api.py:79-80 | Every stored row appears, serialised, in the reply to GET without an id. |
| Resource.GetListsOnlyStoredRows | api.py:79-80 | Every row in the reply to GET without an id is the serialisation of a stored row. |
| Resource.Build | api.py:83 | The constructed object has exactly the table's columns. Each holds the submitted value, or NULL when the field-map leaves it out. |
| Resource.KeyFor | api.py:85-86 | The key an insert receives is never NULL. It is the row's own key when it carries one, and otherwise the allocator's key. |
| Resource.InsertAll | api.py:84-86 | Either the whole batch is inserted or the commit fails with IntegrityError. On success, every row goes under a fresh key, keys are pairwise distinct, and explicit keys are honoured. Old rows are unchanged and no other key appears. |
| Resource.Post | api.py:82-87 | A field-map naming an unknown column fails the request with InvalidKeyword before anything is stored. Any other failure is IntegrityError. On success: old rows are kept, and the store grows by exactly one row per field-map. Reply row `i` is the row stored for field-map `i` under a fresh key; it holds the submitted values and NULL in omitted columns. Every new row appears in the reply, and the store stays well formed. |
| Resource.Patch | api.py:91-93 | The patched row keeps exactly the same columns. Each non-key column the payload names takes the payload's value. The key column, and every column the payload leaves out, keep their values. |
| Resource.Put | api.py:89-95 | A payload without the key field fails with MissingField. Otherwise PUT succeeds exactly when that key is stored, and fails with NotFound when it is not. On success: only the target row changes, its key stays, the named non-key columns take the payload's values and omitted columns are unchanged. The reply is `{Table: [serialize(row)]}`. |
| Resource.Delete | api.py:97-101 | Succeeds exactly when the id is stored, and otherwise gives NotFound. It replies with the row as it was just before deletion. It removes that key only; every other row of the table is unchanged and the store stays well formed. |
| Laws.GetStored | test_api.py:63-66 | GET of a stored key replies with that row serialised. |
| Laws.DeleteThenGetIsNotFound | test_api.py:129-138 | After deleting a stored row, GET and DELETE of that key both give NotFound. |
| Laws.DeleteMissingIsNotFound | test_api.py:140-141 | DELETE of a key that is not stored gives NotFound. |
| Laws.PutThenGet | test_api.py:105-117 | After a PUT, GET of the updated key replies exactly what the PUT replied. |
| Laws.PutIdempotent | api.py:89-95 | Repeating a successful PUT on its own result gives the same store and the same reply. |
| Laws.PutWithoutKeyFails | test_api.py:125-127 | A PUT payload without the key field fails with MissingField. |
| Laws.PostThenGet | test_api.py:79-88 | Every row a POST replies with can be fetched afterwards under a key that was new. GET replies with that same row. |
| Laws.PostThenDeleteRestores | test_api.py:79-90 | Deleting the row a one-row POST created restores the store from before the POST. The DELETE reply equals the POST reply. |
| Laws.PostSucceeds | test_api.py:92-97 | With an allocator that always hands out free keys, a POST whose field-maps name only columns and ask for no key always succeeds. |
| Laws.PostTakenKeyFails | api.py:84-86 | A field-map asking for an already stored key makes the whole batch fail with IntegrityError, so none of it is stored. |
| Laws.PostFreeKeysSucceed | api.py:82-87 | Assume the allocator always hands out a free key. Then a POST of known columns succeeds when its requested keys are unstored and pairwise distinct, and every field-map asking for a key comes before every one that does not. |
| Laws.PostExplicitKeysSucceed | api.py:82-87 | A POST of known columns in which every field-map asks for its own key succeeds when those keys are unstored and pairwise distinct, whatever the allocator. |
| Laws.PostRepeatedKeyFails | api.py:84-86 | Two field-maps of one batch asking for the same key make the whole batch fail with IntegrityError. |
| Csv.HeaderKeys | api.py:126 | The header keys are the first row's keys, sorted, as a permutation of them. |
| Csv.Fields | api.py:129 | Succeeds exactly when the row has every header key. The fields are then `str` of the row's value under each key, in key order. Otherwise it fails naming a missing key. |
| Csv.RowLines | api.py:128-130 | Succeeds exactly when every row has every header key. There is then one line per row, in order: that row's fields joined by commas. |
| Csv.CsvLines | api.py:125-130 | An empty row list fails. Otherwise rendering succeeds exactly when every row has the first row's keys. Line 0 is the sorted keys joined by commas, and line `i+1` is row `i`'s values in that key order. |
| Csv.OutputCsv | api.py:122-134 | The body is every CSV line followed by a line break. It fails exactly when the lines cannot be built. |
| Csv.HeaderIgnoresKeyOrder | api.py:126 | The header does not depend on the order of the first row's keys. |
| Csv.HeaderFields | api.py:126-127 | Splitting the header line at commas gives the first row's keys, sorted, when no key holds a comma. |
| Csv.BodySplitsIntoLines | api.py:127-130 | Assume no key, and no str, float or repr text, holds a line break. Then splitting the body at line breaks gives the header, each row's line and one empty final piece. Ints, bools and None need no such assumption. |
| Csv.HeaderLine | test_api.py:74-76 | The first piece of the body split at line breaks is the header line. This holds whatever the rows contain, as long as no key holds a line break. |
| Csv.TableCsv | api.py:125-127 | For a table's reply, where all rows have the table's columns, rendering succeeds exactly when there is a row. The header is then the sorted column names. |
| Csv.TableHeaderLine | api.py:125-127 | For a non-empty table reply whose column names hold no line break, the first piece of the body is the sorted column names joined by commas. |
| Csv.GenreHeader | test_api.py:71-76 | A non-empty Genre reply, with columns `GenreId` and `Name`, renders with the first line `GenreId,Name`. |

## Left out

- Flask routing, flask_restful resource registration, `url_for` and the `Accept` header negotiation are not modelled. Registration can itself stop start-up, and the model does not say so. flask_restful names each endpoint after the lower-cased class name. A table named `Index` takes the index's endpoint `indexresource`, and two table names equal up to case share one endpoint. Either way `add_resource` raises ValueError. So "start-up succeeds exactly when" in Schema.DiscoverSpec covers the `get_pk` check only. The index URL is written as the `/<Table>` collection path those routes register. The CSV representation is a pure function of the reply body.
- HTTP status codes are not modelled. NotFound stands for 404; MissingField, InvalidKeyword and IntegrityError stand for the 500 an uncaught exception gives.
- SQLAlchemy automap reflection is abstracted. The input to start-up is automap's list of mapped classes. Automap maps no table without a primary key, and it turns a pure link table (all columns foreign keys to two other tables) into a many-to-many relationship rather than a class. Such tables never reach `get_pk`, so they do not make start-up fail and the index omits them; the model takes them as already filtered out. A `TableClass` carries the class name, columns and key columns, and `get_columns` is the metadata's column list.
- Session, SQL queries and commit semantics are abstracted as the map-based store.
- The shared global session, and concurrency between requests, are left out because they are outside the handler's logic.
- Resource.Post: the model does not carry over the shared session's failed state after an IntegrityError. The source never rolls back, so later requests on that session also fail. The model leaves the store unchanged and the next request unaffected.
- Resource.Post: a field-map entry is accepted only when it names a column. The declarative constructor accepts any attribute of the mapped class: the relationships automap adds, `metadata`, and other inherited attributes. These are not modelled, so naming one is treated as an unknown column (InvalidKeyword). For example, `POST /Genre [{"Name": "x", "metadata": 1}]` commits in the source but gives InvalidKeyword in the model.
- Resource.Patch: a PUT field that is not a column is modelled as having no effect on the stored row or the reply. Assigning a relationship attribute, which the source could also do, is not modelled.
- Resource.Post: omitted columns are stored as NULL. Server-side column defaults and type coercion by the database are not modelled.
- Resource.Post: a commit fails in the model only when a row's key, requested or handed out by the allocator, is stored already or taken earlier in the batch. The source's commit also fails in other cases: a NOT NULL, UNIQUE or CHECK constraint on another column (for example a POST to Album that omits its NOT NULL Title), a JSON array or object the database cannot bind, or an int wider than 64 bits. Each gives a 500 and leaves the session failed. The model stores such rows.
- Resource.Put: the commit failures named for Resource.Post are not modelled either. For example, a PUT of null into a NOT NULL column succeeds in the model.
- Laws.PostSucceeds: holds only because the model has no column constraints and binds every value. The same goes for Laws.PostFreeKeysSucceed and Laws.PostExplicitKeysSucceed. In the source, such a POST still fails when a row breaks a constraint.
- Laws.PostSucceeds: its field-maps carry no key, so in the source it holds only for a table whose key column is an integer rowid alias. For any other key column the POST fails (see the Resource.KeyFor line). The same goes for every field-map without a key in Laws.PostFreeKeysSucceed. Laws.PostExplicitKeysSucceed never asks the allocator and is not affected.
- Resource.Post: a field-map without a key on a table whose key column is not an integer rowid alias (for example `POST /Country [{"Name": "x"}]` on `Country(Code TEXT PRIMARY KEY, Name TEXT)`) fails in the source. The model stores the row under the allocator's `Int` key instead.
- Resource.Put: a key value that is a JSON array or object (`{"GenreId": [1], "Name": "x"}`) cannot be bound as a query parameter. The source's lookup then raises, and only NoResultFound is caught, so the result is a 500. The model finds no such stored key and gives NotFound.
- Resource.Put: keys are compared by exact value equality. The source compares in SQL, and a column's type affinity converts values there, so `{"GenreId": "1"}` or `{"GenreId": true}` finds row 1 in the source but gives NotFound in the model. The commit also expires the object, and the reply is reloaded from the database. So a value stored into a TEXT column comes back converted (a PUT of `{"Name": 5}` replies `"5"`), while the model replies with the value as sent.
- Resource.Delete: the relationships between tables are not modelled. Automap gives each referenced class a one-to-many relationship with the default cascade, so deleting a row first sets to NULL the foreign key of every row in other tables that refers to it. `DELETE /Genre/1` therefore also sets `Track.GenreId` to NULL for that genre's tracks. When such a foreign key is NOT NULL, the commit fails with a 500 and leaves the session failed; `DELETE /Artist/1` does this, because `Album.ArtistId` is NOT NULL. The model's store is one table: DELETE of a stored key always succeeds and changes nothing else.
- Resource.Delete: keys are compared by exact value equality. The route id is text (`/Genre/1` passes `"1"`), and the database converts it to the key column's type. The model expects the caller to pass the key already converted, so the text `"1"` does not find the row `1`.
- Resource.KeyFor: the key of a row inserted without one comes from an abstract allocator parameter, not the engine's autoincrement. The source can generate a key only when the key column is an integer rowid alias, the one column SQLAlchemy fetches a generated key for. For any other key column (a TEXT key, say) the INSERT leaves the key NULL. The flush then fails with a NULL identity key, or the commit hits the NOT NULL constraint; either way the result is a 500 and a failed session. The model gives every such row `Int(alloc(s))`, whatever the key column's type. Laws.PostSucceeds and Laws.PostFreeKeysSucceed assume the allocator always returns a free key. Under a max-plus-one allocator, a field-map without a key placed before one asking for the next key makes that key taken, and the batch fails in the source too.
- Resource.Get: route ids are passed already typed. The coercion of the URL text `<id>` to the key's storage type is left to the database and not modelled. A present route id is never empty, so `if id:` is modelled as "an id was given".
- Resource.Get: the engine's order for listing all rows is a parameter (any order that lists each key once), since the SQL query fixes none.
- Some requests fail with a TypeError, and so a 500, when flask_restful calls the handler with the wrong arguments. These are POST or PUT with a path id, and DELETE without one. The routes deliver them, but they are left out, because none reaches the handler's logic.
- Values.Repr: the exact text of `repr` for non-primitive values is opaque. A non-primitive value carries its own text, and NULL's is `None`.
- Values.Printed: a float's `str` text is carried rather than computed from a number, because nothing here does floating-point arithmetic.
- Csv.OutputCsv: only the single-table body every table handler returns is rendered. The loop over several entries of the body, the response object and its headers are left out.
- The index length of 10 in the test follows from the Chinook database the tests run against and from automap's choice of tables. Chinook has 11 tables. PlaylistTrack is a pure link table, so automap maps no class for it, even though its primary key has two columns. Schema.IndexSpec states that the index length equals the number of mapped classes.
- sqlalchemy_todo.py, a stand-alone demo that creates and seeds a database, is not part of this model.

=== FILE: csv.dfy ===
/** The `text/csv` representation of a table reply: a header line of the
    first row's keys in sorted order, then one line per row with its values
    in that key order, fields joined by commas without any quoting. */
module Csv {
  import opened Wrappers
  import opened Values
  import opened Order
  import opened Text
  import opened Serializer
  import opened Resource

  function Id(k: string): string { k }

  /** The header: the first row's keys in ascending order. */
  function HeaderKeys(row: SRow): (ks: seq<string>)
    ensures SortedBy(ks, Id)
    ensures multiset(ks) == multiset(KeysOf(row))
    ensures |ks| == |row|
  {
    SortBy(KeysOf(row), Id)
  }

  /** The row holds every one of `keys`. */
  predicate HasKeys(row: SRow, keys: seq<string>) {
    forall j :: 0 <= j < |keys| ==> Lookup(row, keys[j]).Some?
  }

  /** The fields of one line: `str` of the row's value under each key, in
      order; the first key the row lacks fails the whole rendering. */
  function Fields(row: SRow, keys: seq<string>): (r: Result<seq<string>>)
    ensures r.Success? <==> HasKeys(row, keys)
    ensures r.Success? ==> |r.value| == |keys|
    ensures r.Success? ==> forall j :: 0 <= j < |keys| ==> Lookup(row, keys[j]).Some? && r.value[j] == Printed(Lookup(row, keys[j]).value)
    ensures r.Failure? ==> exists j :: 0 <= j < |keys| && Lookup(row, keys[j]).None? && r.error == MissingKey(keys[j])
    decreases |keys|
  {
    if |keys| == 0 then Success([])
    else
      match Lookup(row, keys[0])
      case None => Failure(MissingKey(keys[0]))
      case Some(v) =>
        match Fields(row, keys[1..])
        case Failure(e) => Failure(e)
        case Success(rest) =>
          assert forall j :: 1 <= j < |keys| ==> keys[j] == keys[1..][j - 1];
          Success([Printed(v)] + rest)
  }

  /** One comma-joined line per row, in order. */
  function RowLines(rows: seq<SRow>, keys: seq<string>): (r: Result<seq<string>>)
    ensures r.Success? <==> forall i :: 0 <= i < |rows| ==> HasKeys(rows[i], keys)
    ensures r.Success? ==> |r.value| == |rows|
    ensures r.Success? ==> forall i :: 0 <= i < |rows| ==> Fields(rows[i], keys).Success? && r.value[i] == Join(Fields(rows[i], keys).value, ',')
    ensures r.Failure? ==> r.error.MissingKey?
    decreases |rows|
  {
    if |rows| == 0 then Success([])
    else
      match Fields(rows[0], keys)
      case Failure(e) => Failure(e)
      case Success(fs) =>
        match RowLines(rows[1..], keys)
        case Failure(e) => Failure(e)
        case Success(rest) =>
          assert forall i :: 1 <= i < |rows| ==> rows[i] == rows[1..][i - 1];
          Success([Join(fs, ',')] + rest)
  }

  /** The lines of the CSV body: the header, then one line per row. An empty
      row list has no first row to take keys from and fails. */
  function CsvLines(env: Envelope): (r: Result<seq<string>>)
    ensures |env.rows| == 0 ==> r == Failure(EmptyRows)
    ensures r.Success? <==> |env.rows| > 0 && forall i :: 0 <= i < |env.rows| ==> HasKeys(env.rows[i], HeaderKeys(env.rows[0]))
    ensures r.Success? ==> |r.value| == |env.rows| + 1
    ensures r.Success? ==> r.value[0] == Join(HeaderKeys(env.rows[0]), ',')
    ensures r.Success? ==> forall i :: 0 <= i < |env.rows| ==>
              Fields(env.rows[i], HeaderKeys(env.rows[0])).Success? &&
              r.value[i + 1] == Join(Fields(env.rows[i], HeaderKeys(env.rows[0])).value, ',')
  {
    if |env.rows| == 0 then Failure(EmptyRows)
    else
      var keys := HeaderKeys(env.rows[0]);
      match RowLines(env.rows, keys)
      case Failure(e) => Failure(e)
      case Success(lines) => Success([Join(keys, ',')] + lines)
  }

  /** The CSV body: every line followed by a line break. */
  function OutputCsv(env: Envelope): (r: Result<string>)
    ensures r.Success? <==> CsvLines(env).Success?
    ensures r.Success? ==> r.value == Lines(CsvLines(env).value)
    ensures r.Failure? ==> r.error == CsvLines(env).error
  {
    match CsvLines(env)
    case Failure(e) => Failure(e)
    case Success(lines) => Success(Lines(lines))
  }

  /** The header does not depend on the order of the first row's keys. */
  lemma HeaderIgnoresKeyOrder(a: SRow, b: SRow)
    requires multiset(KeysOf(a)) == multiset(KeysOf(b))
    ensures HeaderKeys(a) == HeaderKeys(b)
  {
    SortByPermutationInvariant(KeysOf(a), KeysOf(b), Id);
  }

  /** Splitting the header line at commas gives the first row's keys in
      sorted order, when no key holds a comma. */
  lemma HeaderFields(env: Envelope)
    requires CsvLines(env).Success?
    requires |env.rows[0]| >= 1
    requires forall j :: 0 <= j < |env.rows[0]| ==> ',' !in env.rows[0][j].0
    ensures Split(CsvLines(env).value[0], ',') == HeaderKeys(env.rows[0])
  {
    HeaderAvoids(env.rows[0], ',');
    SplitJoin(HeaderKeys(env.rows[0]), ',');
  }

  lemma {:induction false} JoinAvoids(parts: seq<string>, sep: char, c: char)
    requires sep != c
    requires forall i :: 0 <= i < |parts| ==> c !in parts[i]
    ensures c !in Join(parts, sep)
    decreases |parts|
  {
    if |parts| > 1 {
      JoinAvoids(parts[1..], sep, c);
    }
  }

  /** No key of the first row holding `c` means no header key holds it. */
  lemma HeaderAvoids(row: SRow, c: char)
    requires forall t :: 0 <= t < |row| ==> c !in row[t].0
    ensures forall j :: 0 <= j < |HeaderKeys(row)| ==> c !in HeaderKeys(row)[j]
  {
    var keys := HeaderKeys(row);
    forall j | 0 <= j < |keys|
      ensures c !in keys[j]
    {
      assert keys[j] in multiset(KeysOf(row));
      var t :| 0 <= t < |row| && KeysOf(row)[t] == keys[j];
    }
  }

  /** A row line holds `c` only if some value's text in the row does. */
  lemma FieldsAvoid(row: SRow, keys: seq<string>, c: char)
    requires c != ','
    requires Fields(row, keys).Success?
    requires forall t :: 0 <= t < |row| ==> c !in Printed(row[t].1)
    ensures c !in Join(Fields(row, keys).value, ',')
  {
    var fs := Fields(row, keys).value;
    forall j | 0 <= j < |fs|
      ensures c !in fs[j]
    {
      var v := Lookup(row, keys[j]).value;
      var t :| 0 <= t < |row| && row[t] == (keys[j], v);
    }
    JoinAvoids(fs, ',', c);
  }

  /** No key in any row, and no text a value carries, holds a line break. */
  predicate NoLineBreaks(env: Envelope) {
    forall i, j :: 0 <= i < |env.rows| && 0 <= j < |env.rows[i]| ==>
      '\n' !in env.rows[i][j].0 && (CarriesText(env.rows[i][j].1) ==> '\n' !in Printed(env.rows[i][j].1))
  }

  lemma LinesAvoidBreaks(env: Envelope)
    requires CsvLines(env).Success?
    requires NoLineBreaks(env)
    ensures forall i :: 0 <= i < |CsvLines(env).value| ==> '\n' !in CsvLines(env).value[i]
  {
    var lines := CsvLines(env).value;
    var keys := HeaderKeys(env.rows[0]);
    HeaderAvoids(env.rows[0], '\n');
    JoinAvoids(keys, ',', '\n');
    forall i | 1 <= i < |lines|
      ensures '\n' !in lines[i]
    {
      var row := env.rows[i - 1];
      forall t | 0 <= t < |row|
        ensures '\n' !in Printed(row[t].1)
      {
        if !CarriesText(row[t].1) {
          PrintedWithoutText(row[t].1);
        }
      }
      FieldsAvoid(row, keys, '\n');
    }
  }

  /** Splitting the CSV body at line breaks gives the header, then the row
      lines, then one empty piece after the final break, when no key and no
      str, float or repr text holds a line break. */
  lemma BodySplitsIntoLines(env: Envelope)
    requires OutputCsv(env).Success?
    requires NoLineBreaks(env)
    ensures Split(OutputCsv(env).value, '\n') == CsvLines(env).value + [""]
    ensures Split(OutputCsv(env).value, '\n')[0] == Join(HeaderKeys(env.rows[0]), ',')
  {
    LinesAvoidBreaks(env);
    SplitLines(CsvLines(env).value);
  }

  /** Rendering a reply built by the handler: every row has the table's
      columns, so CSV succeeds exactly when there is a row, and the header
      is the table's column names in sorted order. */
  lemma TableCsv(columns: seq<string>, env: Envelope)
    requires forall i :: 0 <= i < |env.rows| ==> KeysOf(env.rows[i]) == columns
    ensures CsvLines(env).Success? <==> |env.rows| > 0
    ensures |env.rows| > 0 ==> CsvLines(env).value[0] == Join(SortBy(columns, Id), ',')
  {
    if |env.rows| > 0 {
      var keys := HeaderKeys(env.rows[0]);
      assert keys == SortBy(columns, Id);
      forall i, j | 0 <= i < |env.rows| && 0 <= j < |keys|
        ensures Lookup(env.rows[i], keys[j]).Some?
      {
        assert keys[j] in multiset(columns);
        var t :| 0 <= t < |columns| && columns[t] == keys[j];
        assert KeysOf(env.rows[i])[t] == env.rows[i][t].0;
      }
    }
  }

  /** The first piece of the body split at line breaks is the header line,
      whenever no header key holds a line break, whatever the rows hold. */
  lemma HeaderLine(env: Envelope)
    requires OutputCsv(env).Success?
    requires forall t :: 0 <= t < |env.rows[0]| ==> '\n' !in env.rows[0][t].0
    ensures Split(OutputCsv(env).value, '\n')[0] == Join(HeaderKeys(env.rows[0]), ',')
  {
    var lines := CsvLines(env).value;
    HeaderAvoids(env.rows[0], '\n');
    JoinAvoids(HeaderKeys(env.rows[0]), ',', '\n');
    assert Lines(lines) == lines[0] + "\n" + Lines(lines[1..]);
    SplitAtSeparator(lines[0], '\n', Lines(lines[1..]));
  }

  /** For a reply whose rows all have the table's columns, and no column
      name holding a line break, the first piece of the body split at line
      breaks is the sorted column names joined by commas. */
  lemma TableHeaderLine(columns: seq<string>, env: Envelope)
    requires |env.rows| > 0
    requires forall i :: 0 <= i < |env.rows| ==> KeysOf(env.rows[i]) == columns
    requires forall t :: 0 <= t < |columns| ==> '\n' !in columns[t]
    ensures OutputCsv(env).Success?
    ensures Split(OutputCsv(env).value, '\n')[0] == Join(SortBy(columns, Id), ',')
  {
    TableCsv(columns, env);
    var row := env.rows[0];
    forall t | 0 <= t < |row|
      ensures '\n' !in row[t].0
    {
      assert KeysOf(row)[t] == row[t].0;
    }
    HeaderLine(env);
  }

  lemma GenreColumnsSorted()
    ensures SortBy(["GenreId", "Name"], Id) == ["GenreId", "Name"]
  {
    var g, n := "GenreId", "Name";
    assert g[0] == 'G' && n[0] == 'N';
    assert StrLe(g, n);
    assert [g, n][1..] == [n];
    assert SortBy([n], Id) == InsertBy(n, [], Id) == [n];
    assert InsertBy(g, [n], Id) == [g, n];
  }

  lemma GenreColumnsJoined()
    ensures Join(["GenreId", "Name"], ',') == "GenreId,Name"
    ensures forall t :: 0 <= t < 2 ==> '\n' !in ["GenreId", "Name"][t]
  {
    var cs := ["GenreId", "Name"];
    assert cs[1..] == ["Name"];
    assert Join(cs, ',') == "GenreId" + [','] + "Name";
  }

  /** A Genre reply, whose rows all have the columns `GenreId` and `Name`,
      renders with the header line `GenreId,Name` when it has a row. */
  lemma GenreHeader(env: Envelope)
    requires |env.rows| > 0
    requires forall i :: 0 <= i < |env.rows| ==> KeysOf(env.rows[i]) == ["GenreId", "Name"]
    ensures OutputCsv(env).Success?
    ensures Split(OutputCsv(env).value, '\n')[0] == "GenreId,Name"
  {
    GenreColumnsSorted();
    GenreColumnsJoined();
    TableHeaderLine(["GenreId", "Name"], env);
  }
}

=== FILE: laws.dfy ===
/** Properties that relate several requests to the same table handler:
    what a later GET or DELETE sees after a POST, PUT or DELETE. */
module Laws {
  import opened Wrappers
  import opened Values
  import opened Schema
  import opened Serializer
  import opened Resource

  /** After a DELETE of a stored row, GET and DELETE of that key are NotFound. */
  lemma DeleteThenGetIsNotFound(m: TableMeta, s: Store, id: Value, scan: seq<Value>)
    requires ValidStore(m, s) && id in s
    requires ScanOrder(Delete(m, s, id).value.store, scan)
    ensures Get(m, Delete(m, s, id).value.store, scan, Some(id)) == Failure(NotFound)
    ensures Delete(m, Delete(m, s, id).value.store, id) == Failure(NotFound)
  {
    assert id !in Delete(m, s, id).value.store;
  }

  /** DELETE of a key that is not stored is NotFound and changes nothing. */
  lemma DeleteMissingIsNotFound(m: TableMeta, s: Store, id: Value)
    requires ValidStore(m, s) && id !in s
    ensures Delete(m, s, id) == Failure(NotFound)
  {
  }

  /** After a PUT, GET of the updated key replies with exactly what the PUT
      replied. */
  lemma PutThenGet(m: TableMeta, s: Store, p: Payload, scan: seq<Value>)
    requires ValidMeta(m) && ValidStore(m, s)
    requires Put(m, s, p).Success?
    requires ScanOrder(Put(m, s, p).value.store, scan)
    ensures Get(m, Put(m, s, p).value.store, scan, Some(p[m.pk])) == Success(Put(m, s, p).value.body)
  {
    assert PutReply(m, s, p, Put(m, s, p).value);
  }

  /** Patching a row that already holds the payload's values gives the row
      back. */
  lemma RepatchKeepsRow(m: TableMeta, id: Value, p: Payload, row: Row, row2: Row)
    requires RowFits(m, id, row) && RowFits(m, id, row2)
    requires forall c :: c in m.columns && c != m.pk && c in p ==> row[c] == p[c]
    requires PatchedRow(m, row, p, row2)
    ensures row2 == row
  {
    forall c | c in row
      ensures row2[c] == row[c]
    {
      assert c in m.columns;
    }
  }

  /** Repeating a PUT changes nothing further and replies the same. */
  lemma PutIdempotent(m: TableMeta, s: Store, p: Payload)
    requires ValidMeta(m) && ValidStore(m, s)
    requires Put(m, s, p).Success?
    ensures Put(m, Put(m, s, p).value.store, p) == Put(m, s, p)
  {
    var r := Put(m, s, p).value;
    assert PutReply(m, s, p, r);
    var id := p[m.pk];
    var s' := r.store;
    var r2 := Put(m, s', p).value;
    assert PutReply(m, s', p, r2);
    RepatchKeepsRow(m, id, p, s'[id], r2.store[id]);
    assert r2.store == s';
  }

  /** A payload without the key field never reaches the store. */
  lemma PutWithoutKeyFails(m: TableMeta, s: Store, p: Payload)
    requires ValidMeta(m) && ValidStore(m, s)
    requires m.pk !in p
    ensures Put(m, s, p).Failure? && Put(m, s, p).error.MissingField?
  {
  }

  /** GET of a stored key replies with that row. */
  lemma GetStored(m: TableMeta, s: Store, scan: seq<Value>, k: Value)
    requires ValidStore(m, s) && ScanOrder(s, scan) && k in s
    ensures HasColumns(m, s[k]) && Get(m, s, scan, Some(k)) == Success(Envelope(m.name, [Serialize(m, s[k])]))
  {
  }

  /** Every row a POST replies with can be fetched afterwards by its key,
      and GET replies with that same row. */
  lemma PostThenGet(m: TableMeta, s: Store, payloads: seq<Payload>, alloc: Store -> int, r: Result<Reply>, i: int, scan: seq<Value>)
    requires ValidMeta(m) && ValidStore(m, s)
    requires r == Post(m, s, payloads, alloc) && r.Success?
    requires 0 <= i < |payloads|
    requires ScanOrder(r.value.store, scan)
    ensures exists k :: k !in s && k in r.value.store && Get(m, r.value.store, scan, Some(k)) == Success(Envelope(m.name, [r.value.body.rows[i]]))
  {
    var reply := r.value;
    assert PostReply(m, s, payloads, reply);
    var k :| k in reply.store && PostedAs(m, s, reply, payloads[i], i, k);
    GetStored(m, reply.store, scan, k);
  }

  lemma SubsetSameSize<T>(a: set<T>, b: set<T>)
    requires a <= b && |a| == |b|
    ensures a == b
  {
    assert |b - a| == |b| - |a|;
  }

  lemma OnePostWitness(m: TableMeta, s: Store, p: Payload, reply: Reply)
    requires PostReply(m, s, [p], reply)
    ensures exists k :: k in reply.store && PostedAs(m, s, reply, p, 0, k)
  {
    assert [p][0] == p;
  }

  lemma OnePostBody(m: TableMeta, s: Store, p: Payload, reply: Reply, k: Value)
    requires |reply.body.rows| == 1 && reply.body.table == m.name
    requires k in reply.store && PostedAs(m, s, reply, p, 0, k)
    ensures reply.body == Envelope(m.name, [Serialize(m, reply.store[k])])
  {
  }

  lemma OnePostRow(m: TableMeta, s: Store, p: Payload, reply: Reply) returns (k: Value)
    requires PostReply(m, s, [p], reply)
    ensures k !in s && k in reply.store && HasColumns(m, reply.store[k])
    ensures reply.body == Envelope(m.name, [Serialize(m, reply.store[k])])
  {
    OnePostWitness(m, s, p, reply);
    k :| k in reply.store && PostedAs(m, s, reply, p, 0, k);
    OnePostBody(m, s, p, reply, k);
  }

  lemma OneKeyAdded<V>(s: map<Value, V>, s': map<Value, V>, k: Value)
    requires k !in s && k in s'
    requires s.Keys <= s'.Keys && |s'| == |s| + 1
    ensures s'.Keys == s.Keys + {k}
  {
    assert |s.Keys + {k}| == |s.Keys| + 1;
    SubsetSameSize(s.Keys + {k}, s'.Keys);
  }

  lemma OnePostAdded(m: TableMeta, s: Store, p: Payload, reply: Reply) returns (k: Value)
    requires PostReply(m, s, [p], reply)
    ensures k !in s && k in reply.store && HasColumns(m, reply.store[k])
    ensures reply.store.Keys == s.Keys + {k}
    ensures forall x :: x in s ==> reply.store[x] == s[x]
    ensures reply.body == Envelope(m.name, [Serialize(m, reply.store[k])])
  {
    k := OnePostRow(m, s, p, reply);
    OneKeyAdded(s, reply.store, k);
  }

  lemma RemoveAdded(s: Store, s': Store, k: Value)
    requires k !in s && k in s'
    requires s'.Keys == s.Keys + {k}
    requires forall x :: x in s ==> s'[x] == s[x]
    ensures s' - {k} == s
  {
    var d := s' - {k};
    assert d.Keys == s.Keys;
  }

  lemma DeleteUndoesAdd(m: TableMeta, s: Store, s': Store, k: Value)
    requires ValidStore(m, s')
    requires k !in s && k in s'
    requires s'.Keys == s.Keys + {k}
    requires forall x :: x in s ==> s'[x] == s[x]
    ensures Delete(m, s', k).Success? && Delete(m, s', k).value.store == s
  {
    RemoveAdded(s, s', k);
  }

  /** Deleting the row a one-row POST created gives back the store from
      before the POST, and DELETE replies with the row POST replied with. */
  lemma PostThenDeleteRestores(m: TableMeta, s: Store, p: Payload, alloc: Store -> int, r: Result<Reply>)
    requires ValidMeta(m) && ValidStore(m, s)
    requires r == Post(m, s, [p], alloc) && r.Success?
    ensures exists k :: k !in s && k in r.value.store && Delete(m, r.value.store, k) == Success(Reply(r.value.body, s))
  {
    var reply := r.value;
    var k := OnePostAdded(m, s, p, reply);
    DeleteUndoesAdd(m, s, reply.store, k);
  }

  /** The engine's allocator never hands out a key the store already holds. */
  ghost predicate FreshAllocator(alloc: Store -> int) {
    forall st: Store :: Int(alloc(st)) !in st
  }

  lemma {:induction false} InsertAllSucceeds(m: TableMeta, s: Store, objs: seq<Row>, alloc: Store -> int)
    requires FreshAllocator(alloc)
    requires forall i :: 0 <= i < |objs| ==> !HasExplicitKey(m, objs[i])
    ensures InsertAll(m, s, objs, alloc).Success?
    decreases |objs|
  {
    if |objs| > 0 {
      var k := KeyFor(m, objs[0], s, alloc);
      assert k == Int(alloc(s));
      InsertAllSucceeds(m, s[k := WithKey(m, objs[0], k)], objs[1..], alloc);
    }
  }

  /** With an allocator that hands out free keys, a POST whose field-maps
      name only columns and ask for no particular key always succeeds. */
  lemma PostSucceeds(m: TableMeta, s: Store, payloads: seq<Payload>, alloc: Store -> int)
    requires ValidMeta(m) && ValidStore(m, s)
    requires FreshAllocator(alloc)
    requires forall i :: 0 <= i < |payloads| ==> KnownColumns(m, payloads[i]) && !HasExplicitKey(m, payloads[i])
    ensures Post(m, s, payloads, alloc).Success?
  {
    var objs := BuildAll(m, payloads);
    forall i | 0 <= i < |objs|
      ensures m.pk in objs[i] && objs[i][m.pk] == Null
    {
      assert m.pk in ColumnSet(m);
    }
    InsertAllSucceeds(m, s, objs, alloc);
  }

  lemma {:induction false} InsertAllTakenKey(m: TableMeta, s: Store, objs: seq<Row>, alloc: Store -> int, i: int)
    requires 0 <= i < |objs|
    requires HasExplicitKey(m, objs[i]) && objs[i][m.pk] in s
    ensures InsertAll(m, s, objs, alloc) == Failure(IntegrityError)
    decreases |objs|
  {
    var k := KeyFor(m, objs[0], s, alloc);
    if k !in s {
      assert i > 0;
      var s1 := s[k := WithKey(m, objs[0], k)];
      assert objs[1..][i - 1] == objs[i];
      InsertAllTakenKey(m, s1, objs[1..], alloc, i - 1);
    }
  }

  /** A field-map asking for a key that is already stored makes the whole
      POST fail at commit, so none of the batch is stored. */
  lemma PostTakenKeyFails(m: TableMeta, s: Store, payloads: seq<Payload>, alloc: Store -> int, i: int)
    requires ValidMeta(m) && ValidStore(m, s)
    requires forall j :: 0 <= j < |payloads| ==> KnownColumns(m, payloads[j])
    requires 0 <= i < |payloads| && HasExplicitKey(m, payloads[i]) && payloads[i][m.pk] in s
    ensures Post(m, s, payloads, alloc) == Failure(IntegrityError)
  {
    var objs := BuildAll(m, payloads);
    assert m.pk in ColumnSet(m);
    InsertAllTakenKey(m, s, objs, alloc, i);
  }

  /** Every row that carries a key carries one that is not stored, no two
      rows carry the same key, and every row that carries a key comes before
      every row that does not. */
  predicate KeysFirst(m: TableMeta, s: Store, objs: seq<Row>) {
    && (forall i :: 0 <= i < |objs| && HasExplicitKey(m, objs[i]) ==> objs[i][m.pk] !in s)
    && (forall i, j :: 0 <= i < j < |objs| && HasExplicitKey(m, objs[i]) && HasExplicitKey(m, objs[j]) ==>
          objs[i][m.pk] != objs[j][m.pk])
    && (forall i, j :: 0 <= i < j < |objs| && !HasExplicitKey(m, objs[i]) ==> !HasExplicitKey(m, objs[j]))
  }

  lemma KeysFirstTail(m: TableMeta, s: Store, objs: seq<Row>, alloc: Store -> int)
    requires |objs| > 0 && HasExplicitKey(m, objs[0]) && KeysFirst(m, s, objs)
    ensures var k := KeyFor(m, objs[0], s, alloc);
      k !in s && KeysFirst(m, s[k := WithKey(m, objs[0], k)], objs[1..])
  {
    var k := KeyFor(m, objs[0], s, alloc);
    var s1 := s[k := WithKey(m, objs[0], k)];
    var rest := objs[1..];
    forall i | 0 <= i < |rest| && HasExplicitKey(m, rest[i])
      ensures rest[i][m.pk] !in s1
    {
      assert rest[i] == objs[i + 1];
    }
    forall i, j | 0 <= i < j < |rest| && HasExplicitKey(m, rest[i]) && HasExplicitKey(m, rest[j])
      ensures rest[i][m.pk] != rest[j][m.pk]
    {
      assert rest[i] == objs[i + 1] && rest[j] == objs[j + 1];
    }
    forall i, j | 0 <= i < j < |rest| && !HasExplicitKey(m, rest[i])
      ensures !HasExplicitKey(m, rest[j])
    {
      assert rest[i] == objs[i + 1] && rest[j] == objs[j + 1];
    }
  }

  /** Rows whose own keys are free and distinct, placed before the rows that
      leave the key to the allocator, all insert; the allocator only has to
      hand out free keys, and when every row carries a key it is never asked. */
  lemma {:induction false} InsertAllKeysFirst(m: TableMeta, s: Store, objs: seq<Row>, alloc: Store -> int)
    requires KeysFirst(m, s, objs)
    requires FreshAllocator(alloc) || forall i :: 0 <= i < |objs| ==> HasExplicitKey(m, objs[i])
    ensures InsertAll(m, s, objs, alloc).Success?
    decreases |objs|
  {
    if |objs| > 0 {
      var k := KeyFor(m, objs[0], s, alloc);
      if HasExplicitKey(m, objs[0]) {
        KeysFirstTail(m, s, objs, alloc);
        var rest := objs[1..];
        if !FreshAllocator(alloc) {
          forall i | 0 <= i < |rest| ensures HasExplicitKey(m, rest[i]) {
            assert rest[i] == objs[i + 1];
          }
        }
        InsertAllKeysFirst(m, s[k := WithKey(m, objs[0], k)], rest, alloc);
      } else {
        assert forall i :: 0 < i < |objs| ==> !HasExplicitKey(m, objs[i]);
        InsertAllSucceeds(m, s, objs, alloc);
      }
    }
  }
  /** The rows the constructor builds carry exactly the keys the field-maps
      ask for. */
  lemma BuiltKeys(m: TableMeta, payloads: seq<Payload>, i: int)
    requires ValidMeta(m) && 0 <= i < |payloads|
    ensures var row := BuildAll(m, payloads)[i];
      && m.pk in row
      && (HasExplicitKey(m, row) <==> HasExplicitKey(m, payloads[i]))
      && (HasExplicitKey(m, payloads[i]) ==> row[m.pk] == payloads[i][m.pk])
  {
    assert m.pk in ColumnSet(m);
  }

  /** A POST of known columns whose requested keys are unstored and pairwise
      distinct, and whose field-maps asking for a key all come before those
      that do not, succeeds, given an allocator that hands out free keys. */
  lemma PostFreeKeysSucceed(m: TableMeta, s: Store, payloads: seq<Payload>, alloc: Store -> int)
    requires ValidMeta(m) && ValidStore(m, s)
    requires FreshAllocator(alloc)
    requires forall i :: 0 <= i < |payloads| ==> KnownColumns(m, payloads[i])
    requires forall i :: 0 <= i < |payloads| && HasExplicitKey(m, payloads[i]) ==> payloads[i][m.pk] !in s
    requires forall i, j :: 0 <= i < j < |payloads| && HasExplicitKey(m, payloads[i]) && HasExplicitKey(m, payloads[j]) ==>
               payloads[i][m.pk] != payloads[j][m.pk]
    requires forall i, j :: 0 <= i < j < |payloads| && !HasExplicitKey(m, payloads[i]) ==> !HasExplicitKey(m, payloads[j])
    ensures Post(m, s, payloads, alloc).Success?
  {
    var objs := BuildAll(m, payloads);
    forall i | 0 <= i < |objs|
      ensures HasExplicitKey(m, objs[i]) <==> HasExplicitKey(m, payloads[i])
      ensures HasExplicitKey(m, payloads[i]) ==> objs[i][m.pk] == payloads[i][m.pk]
    {
      BuiltKeys(m, payloads, i);
    }
    assert KeysFirst(m, s, objs);
    InsertAllKeysFirst(m, s, objs, alloc);
  }

  /** A POST in which every field-map asks for its own unstored key, no two
      the same, succeeds whatever the allocator does: it is never asked. */
  lemma PostExplicitKeysSucceed(m: TableMeta, s: Store, payloads: seq<Payload>, alloc: Store -> int)
    requires ValidMeta(m) && ValidStore(m, s)
    requires forall i :: 0 <= i < |payloads| ==>
               KnownColumns(m, payloads[i]) && HasExplicitKey(m, payloads[i]) && payloads[i][m.pk] !in s
    requires forall i, j :: 0 <= i < j < |payloads| && HasExplicitKey(m, payloads[i]) && HasExplicitKey(m, payloads[j]) ==>
               payloads[i][m.pk] != payloads[j][m.pk]
    ensures Post(m, s, payloads, alloc).Success?
  {
    var objs := BuildAll(m, payloads);
    forall i | 0 <= i < |objs|
      ensures HasExplicitKey(m, objs[i])
      ensures objs[i][m.pk] == payloads[i][m.pk]
    {
      BuiltKeys(m, payloads, i);
    }
    assert KeysFirst(m, s, objs);
    InsertAllKeysFirst(m, s, objs, alloc);
  }

  lemma {:induction false} InsertAllRepeatedKey(m: TableMeta, s: Store, objs: seq<Row>, alloc: Store -> int, i: int, j: int)
    requires 0 <= i < j < |objs|
    requires HasExplicitKey(m, objs[i])
    requires m.pk in objs[j] && objs[j][m.pk] == objs[i][m.pk]
    ensures InsertAll(m, s, objs, alloc) == Failure(IntegrityError)
    decreases |objs|
  {
    var k := KeyFor(m, objs[0], s, alloc);
    if k !in s {
      var s1 := s[k := WithKey(m, objs[0], k)];
      assert objs[1..][j - 1] == objs[j];
      if i == 0 {
        InsertAllTakenKey(m, s1, objs[1..], alloc, j - 1);
      } else {
        assert objs[1..][i - 1] == objs[i];
        InsertAllRepeatedKey(m, s1, objs[1..], alloc, i - 1, j - 1);
      }
    }
  }

  /** Two field-maps asking for the same key make the whole POST fail at
      commit, so none of the batch is stored. */
  lemma PostRepeatedKeyFails(m: TableMeta, s: Store, payloads: seq<Payload>, alloc: Store -> int, i: int, j: int)
    requires ValidMeta(m) && ValidStore(m, s)
    requires forall q :: 0 <= q < |payloads| ==> KnownColumns(m, payloads[q])
    requires 0 <= i < j < |payloads| && HasExplicitKey(m, payloads[i]) && HasExplicitKey(m, payloads[j])
    requires payloads[i][m.pk] == payloads[j][m.pk]
    ensures Post(m, s, payloads, alloc) == Failure(IntegrityError)
  {
    BuiltKeys(m, payloads, i);
    BuiltKeys(m, payloads, j);
    InsertAllRepeatedKey(m, s, BuildAll(m, payloads), alloc, i, j);
  }
}

=== FILE: order.dfy ===
/** Python's ordering of `str` values and a sort by a string key
    (the `sorted` built-in as the service uses it). */
module Order {

  /** `a <= b` for Python strings: code point by code point, a proper
      prefix sorting first. */
  predicate StrLe(a: string, b: string)
    decreases |a|
  {
    if |a| == 0 then true
    else if |b| == 0 then false
    else if a[0] != b[0] then a[0] < b[0]
    else StrLe(a[1..], b[1..])
  }

  lemma {:induction false} StrLeReflexive(a: string)
    ensures StrLe(a, a)
    decreases |a|
  {
    if |a| > 0 {
      StrLeReflexive(a[1..]);
    }
  }

  lemma {:induction false} StrLeTotal(a: string, b: string)
    ensures StrLe(a, b) || StrLe(b, a)
    decreases |a|
  {
    if |a| > 0 && |b| > 0 && a[0] == b[0] {
      StrLeTotal(a[1..], b[1..]);
    }
  }

  lemma {:induction false} StrLeAntisymmetric(a: string, b: string)
    requires StrLe(a, b) && StrLe(b, a)
    ensures a == b
    decreases |a|
  {
    if |a| > 0 {
      StrLeAntisymmetric(a[1..], b[1..]);
      assert a == [a[0]] + a[1..];
      assert b == [b[0]] + b[1..];
    }
  }

  lemma {:induction false} StrLeTransitive(a: string, b: string, c: string)
    requires StrLe(a, b) && StrLe(b, c)
    ensures StrLe(a, c)
    decreases |a|
  {
    if |a| > 0 && a[0] == b[0] && b[0] == c[0] {
      StrLeTransitive(a[1..], b[1..], c[1..]);
    }
  }

  /** `s` is in ascending order of `key`. */
  predicate SortedBy<T>(s: seq<T>, key: T -> string) {
    forall i, j :: 0 <= i < j < |s| ==> StrLe(key(s[i]), key(s[j]))
  }

  /** No two elements of `s` that differ share a key. */
  predicate KeyInjective<T(==,!new)>(s: seq<T>, key: T -> string) {
    forall x, y :: x in s && y in s && key(x) == key(y) ==> x == y
  }

  /** Inserts `x` before the first element whose key is not smaller. */
  function InsertBy<T(==,!new)>(x: T, s: seq<T>, key: T -> string): (r: seq<T>)
    requires SortedBy(s, key)
    ensures SortedBy(r, key)
    ensures multiset(r) == multiset(s) + multiset{x}
    ensures forall y :: y in r <==> y == x || y in s
  {
    if |s| == 0 then [x]
    else if StrLe(key(x), key(s[0])) then
      assert forall j :: 0 <= j < |s| ==> StrLe(key(x), key(s[j])) by {
        forall j | 0 <= j < |s|
          ensures StrLe(key(x), key(s[j]))
        {
          if j > 0 { StrLeTransitive(key(x), key(s[0]), key(s[j])); }
        }
      }
      [x] + s
    else
      var t := InsertBy(x, s[1..], key);
      assert StrLe(key(s[0]), key(x)) by { StrLeTotal(key(x), key(s[0])); }
      assert forall j :: 0 <= j < |t| ==> StrLe(key(s[0]), key(t[j])) by {
        forall j | 0 <= j < |t|
          ensures StrLe(key(s[0]), key(t[j]))
        {
          if t[j] != x {
            assert t[j] in t;
            assert t[j] in s[1..];
            var k :| 0 <= k < |s[1..]| && s[1..][k] == t[j];
            assert s[k + 1] == t[j];
          }
        }
      }
      assert s == [s[0]] + s[1..];
      [s[0]] + t
  }

  /** `sorted(s, key=key)`: the elements of `s` in ascending key order. */
  function SortBy<T(==,!new)>(s: seq<T>, key: T -> string): (r: seq<T>)
    ensures SortedBy(r, key)
    ensures multiset(r) == multiset(s)
    ensures |r| == |s|
    ensures forall y :: y in r <==> y in s
  {
    if |s| == 0 then []
    else
      assert s == [s[0]] + s[1..];
      InsertBy(s[0], SortBy(s[1..], key), key)
  }

  /** The first elements of two sorted arrangements of the same non-empty
      collection agree when a key names one element. */
  lemma SortedHeadsAgree<T(!new)>(a: seq<T>, b: seq<T>, key: T -> string)
    requires SortedBy(a, key) && SortedBy(b, key)
    requires multiset(a) == multiset(b)
    requires KeyInjective(a, key)
    requires |a| > 0 && |b| > 0
    ensures a[0] == b[0]
  {
    assert a[0] in multiset(b) && b[0] in multiset(a);
    var i :| 0 <= i < |b| && b[i] == a[0];
    var j :| 0 <= j < |a| && a[j] == b[0];
    if i > 0 { assert StrLe(key(b[0]), key(b[i])); } else { StrLeReflexive(key(b[0])); }
    if j > 0 { assert StrLe(key(a[0]), key(a[j])); } else { StrLeReflexive(key(a[0])); }
    StrLeAntisymmetric(key(a[0]), key(b[0]));
  }

  lemma DropHead<T(!new)>(a: seq<T>, b: seq<T>, key: T -> string)
    requires multiset(a) == multiset(b)
    requires KeyInjective(a, key)
    requires |a| > 0 && |b| > 0 && a[0] == b[0]
    ensures multiset(a[1..]) == multiset(b[1..])
    ensures KeyInjective(a[1..], key)
  {
    assert a == [a[0]] + a[1..];
    assert b == [b[0]] + b[1..];
    assert multiset(a[1..]) == multiset(a) - multiset{a[0]};
    assert multiset(b[1..]) == multiset(b) - multiset{b[0]};
    forall x, y | x in a[1..] && y in a[1..] && key(x) == key(y)
      ensures x == y
    {
      assert x in a && y in a;
    }
  }

  /** Two sorted arrangements of the same elements, where a key names one
      element, are the same sequence: sorting does not depend on the order
      it started from. */
  lemma {:induction false} SortedUnique<T(!new)>(a: seq<T>, b: seq<T>, key: T -> string)
    requires SortedBy(a, key) && SortedBy(b, key)
    requires multiset(a) == multiset(b)
    requires KeyInjective(a, key)
    ensures a == b
    decreases |a|
  {
    assert |a| == |multiset(a)| == |multiset(b)| == |b|;
    if |a| > 0 {
      SortedHeadsAgree(a, b, key);
      DropHead(a, b, key);
      SortedUnique(a[1..], b[1..], key);
      assert a == [a[0]] + a[1..];
      assert b == [b[0]] + b[1..];
    }
  }

  /** Sorting two arrangements of the same elements gives the same result. */
  lemma SortByPermutationInvariant<T(!new)>(a: seq<T>, b: seq<T>, key: T -> string)
    requires multiset(a) == multiset(b)
    requires KeyInjective(a, key)
    ensures SortBy(a, key) == SortBy(b, key)
  {
    var sa, sb := SortBy(a, key), SortBy(b, key);
    assert KeyInjective(sa, key) by {
      forall x, y | x in sa && y in sa && key(x) == key(y)
        ensures x == y
      {
        assert x in a && y in a;
      }
    }
    SortedUnique(sa, sb, key);
  }
}

=== FILE: resource.dfy ===
/** The generic per-table handler: one table is a store mapping primary-key
    values to rows, and the four request handlers read or rewrite it. Every
    reply wraps its rows as `{TableName: [rows]}`; a failure carries no
    store, so a failed request leaves the store as it was. */
module Resource {
  import opened Wrappers
  import opened Values
  import opened Schema
  import opened Serializer

  /** The rows of one table, by primary-key value. */
  type Store = map<Value, Row>

  /** A JSON object sent in a request body: field name to value. */
  type Payload = map<string, Value>

  /** `{table: rows}`, the body of every table reply. */
  datatype Envelope = Envelope(table: string, rows: seq<SRow>)

  /** The body of a write reply and the store once it has been committed. */
  datatype Reply = Reply(body: Envelope, store: Store)

  function ColumnSet(m: TableMeta): set<string> {
    set c | c in m.columns
  }

  /** A stored row has exactly the table's columns and holds its own key. */
  predicate RowFits(m: TableMeta, key: Value, row: Row) {
    row.Keys == ColumnSet(m) && m.pk in row && row[m.pk] == key
  }

  /** Every row is stored under its own, non-NULL primary-key value. */
  predicate ValidStore(m: TableMeta, s: Store) {
    forall k :: k in s ==> k != Null && RowFits(m, k, s[k])
  }

  /** `scan` is an order in which the storage engine lists the store's keys:
      each key once. */
  predicate ScanOrder(s: Store, scan: seq<Value>) {
    && Distinct(scan)
    && (forall k :: k in s ==> k in scan)
    && (forall i :: 0 <= i < |scan| ==> scan[i] in s)
  }

  /** A duplicate-free sequence listing exactly the members of a set is as
      long as the set is large. */
  lemma {:induction false} DistinctListing(ks: set<Value>, scan: seq<Value>)
    requires Distinct(scan)
    requires forall k :: k in ks ==> k in scan
    requires forall i :: 0 <= i < |scan| ==> scan[i] in ks
    ensures |scan| == |ks|
    decreases |scan|
  {
    if |scan| > 0 {
      var rest := scan[1..];
      var ks' := ks - {scan[0]};
      forall i, j | 0 <= i < j < |rest|
        ensures rest[i] != rest[j]
      {
        assert rest[i] == scan[i + 1] && rest[j] == scan[j + 1];
      }
      forall k | k in ks'
        ensures k in rest
      {
        var j :| 0 <= j < |scan| && scan[j] == k;
        assert rest[j - 1] == k;
      }
      forall i | 0 <= i < |rest|
        ensures rest[i] in ks'
      {
        assert rest[i] == scan[i + 1];
      }
      DistinctListing(ks', rest);
    } else {
      assert forall k :: k in ks ==> k in scan;
      assert ks == {};
    }
  }

  lemma ScanLength(s: Store, scan: seq<Value>)
    requires ScanOrder(s, scan)
    ensures |scan| == |s|
  {
    DistinctListing(s.Keys, scan);
  }

  lemma StoredRowHasColumns(m: TableMeta, s: Store, k: Value)
    requires ValidStore(m, s) && k in s
    ensures HasColumns(m, s[k])
  {
    assert s[k].Keys == ColumnSet(m);
  }

  /** The row whose key equals `id`, or NotFound. */
  function GetObject(s: Store, id: Value): (r: Result<Row>)
    ensures r.Success? <==> id in s
    ensures r.Success? ==> r.value == s[id]
    ensures r.Failure? ==> r.error == NotFound
  {
    if id in s then Success(s[id]) else Failure(NotFound)
  }

  /** Every row, serialised, in the engine's scan order. */
  function ListAll(m: TableMeta, s: Store, scan: seq<Value>): (rows: seq<SRow>)
    requires ValidStore(m, s) && ScanOrder(s, scan)
    ensures |rows| == |scan| == |s|
    ensures forall i :: 0 <= i < |rows| ==> HasColumns(m, s[scan[i]]) && rows[i] == Serialize(m, s[scan[i]])
  {
    ScanLength(s, scan);
    assert forall i :: 0 <= i < |scan| ==> HasColumns(m, s[scan[i]]) by {
      forall i | 0 <= i < |scan|
        ensures HasColumns(m, s[scan[i]])
      {
        StoredRowHasColumns(m, s, scan[i]);
      }
    }
    seq(|scan|, i requires 0 <= i < |scan| => Serialize(m, s[scan[i]]))
  }

  /** GET with an id: the one row under that key, as a one-element list, or
      NotFound. GET without an id: every row, each once, in the engine's
      scan order. */
  function Get(m: TableMeta, s: Store, scan: seq<Value>, id: Option<Value>): (r: Result<Envelope>)
    requires ValidStore(m, s) && ScanOrder(s, scan)
    ensures id.Some? ==> (r.Success? <==> id.value in s)
    ensures id.Some? && r.Failure? ==> r.error == NotFound
    ensures id.Some? && r.Success? ==> HasColumns(m, s[id.value]) && r.value == Envelope(m.name, [Serialize(m, s[id.value])])
    ensures id.None? ==> r.Success? && r.value.table == m.name && |r.value.rows| == |s| == |scan|
    ensures id.None? ==> forall i :: 0 <= i < |r.value.rows| ==> HasColumns(m, s[scan[i]]) && r.value.rows[i] == Serialize(m, s[scan[i]])
  {
    if id.Some? then
      match GetObject(s, id.value)
      case Failure(e) => Failure(e)
      case Success(row) =>
        StoredRowHasColumns(m, s, id.value);
        Success(Envelope(m.name, [Serialize(m, row)]))
    else
      Success(Envelope(m.name, ListAll(m, s, scan)))
  }

  /** GET without an id lists every stored row... */
  lemma GetListsEveryRow(m: TableMeta, s: Store, scan: seq<Value>, k: Value)
    requires ValidStore(m, s) && ScanOrder(s, scan)
    requires k in s
    ensures HasColumns(m, s[k]) && Serialize(m, s[k]) in Get(m, s, scan, None).value.rows
  {
    assert Get(m, s, scan, None).value.rows == ListAll(m, s, scan);
    assert exists i :: 0 <= i < |scan| && scan[i] == k;
    var i :| 0 <= i < |scan| && scan[i] == k;
    assert ListAll(m, s, scan)[i] == Serialize(m, s[k]);
  }

  /** ...and lists nothing else. */
  lemma GetListsOnlyStoredRows(m: TableMeta, s: Store, scan: seq<Value>, row: SRow)
    requires ValidStore(m, s) && ScanOrder(s, scan)
    requires row in Get(m, s, scan, None).value.rows
    ensures exists k :: k in s && HasColumns(m, s[k]) && row == Serialize(m, s[k])
  {
    var rows := ListAll(m, s, scan);
    assert Get(m, s, scan, None).value.rows == rows;
    var i :| 0 <= i < |rows| && rows[i] == row;
    assert scan[i] in s;
  }

  /** Every field of the payload names a column of the table. */
  predicate KnownColumns(m: TableMeta, p: Payload) {
    forall k :: k in p ==> k in m.columns
  }

  /** The field-map or row carries a primary-key value of its own, rather
      than leaving the key to the allocator. */
  predicate HasExplicitKey(m: TableMeta, p: Payload) {
    m.pk in p && p[m.pk] != Null
  }

  /** The object `table_class(**p)` builds: the submitted values, NULL in
      every column the payload leaves out. */
  function Build(m: TableMeta, p: Payload): (row: Row)
    ensures row.Keys == ColumnSet(m)
    ensures forall c :: c in m.columns && c in p ==> row[c] == p[c]
    ensures forall c :: c in m.columns && c !in p ==> row[c] == Null
  {
    map c | c in ColumnSet(m) :: if c in p then p[c] else Null
  }

  /** The key an insert gives a row: the one it carries, or else the next
      one the engine's allocator hands out for the current store. */
  function KeyFor(m: TableMeta, row: Row, s: Store, alloc: Store -> int): (k: Value)
    ensures k != Null
    ensures HasExplicitKey(m, row) ==> k == row[m.pk]
    ensures !(HasExplicitKey(m, row)) ==> k == Int(alloc(s))
  {
    if HasExplicitKey(m, row) then row[m.pk] else Int(alloc(s))
  }

  function KeySet(keys: seq<Value>): set<Value> {
    set i | 0 <= i < |keys| :: keys[i]
  }

  /** None of `keys` is NULL or taken in `s`. */
  predicate FreshKeys(s: Store, keys: seq<Value>) {
    forall i :: 0 <= i < |keys| ==> keys[i] !in s && keys[i] != Null
  }

  /** The row as stored under `k`: its key column holds `k`. */
  function WithKey(m: TableMeta, row: Row, k: Value): Row {
    row[m.pk := k]
  }

  /** Row `i` of `objs` is stored in `s'` under `keys[i]`, with its key
      column set to that key; a row that carried a key got that key. */
  predicate StoredUnder(m: TableMeta, objs: seq<Row>, keys: seq<Value>, s': Store) {
    && |keys| == |objs|
    && (forall i :: 0 <= i < |keys| ==> keys[i] in s' && s'[keys[i]] == WithKey(m, objs[i], keys[i]))
    && (forall i :: 0 <= i < |keys| && HasExplicitKey(m, objs[i]) ==> keys[i] == objs[i][m.pk])
  }

  /** `s'` is `s` with `objs` added under the fresh, pairwise distinct
      `keys`, and nothing else changed. */
  predicate Inserted(m: TableMeta, s: Store, objs: seq<Row>, keys: seq<Value>, s': Store) {
    && FreshKeys(s, keys)
    && Distinct(keys)
    && s'.Keys == s.Keys + KeySet(keys)
    && (forall k :: k in s ==> s'[k] == s[k])
    && StoredUnder(m, objs, keys, s')
  }

  lemma KeySetCons(k: Value, ks: seq<Value>)
    ensures KeySet([k] + ks) == {k} + KeySet(ks)
  {
    var keys := [k] + ks;
    forall x | x in KeySet(keys) ensures x in {k} + KeySet(ks) {
      var i :| 0 <= i < |keys| && keys[i] == x;
      if i > 0 { assert ks[i - 1] == x; }
    }
    forall x | x in KeySet(ks) ensures x in KeySet(keys) {
      var i :| 0 <= i < |ks| && ks[i] == x;
      assert keys[i + 1] == x;
    }
    assert keys[0] == k;
  }

  lemma FreshCons(s: Store, k: Value, v: Row, ks: seq<Value>)
    requires k !in s && k != Null
    requires FreshKeys(s[k := v], ks) && Distinct(ks)
    ensures FreshKeys(s, [k] + ks) && Distinct([k] + ks)
  {
    var keys := [k] + ks;
    forall i | 0 <= i < |keys|
      ensures keys[i] !in s && keys[i] != Null
    {
      if i > 0 { assert keys[i] == ks[i - 1]; }
    }
    forall i, j | 0 <= i < j < |keys|
      ensures keys[i] != keys[j]
    {
      assert keys[j] == ks[j - 1];
      if i > 0 { assert keys[i] == ks[i - 1]; }
    }
  }

  lemma StoredUnderCons(m: TableMeta, objs: seq<Row>, k: Value, ks: seq<Value>, s: Store, s': Store)
    requires |objs| > 0
    requires HasExplicitKey(m, objs[0]) ==> k == objs[0][m.pk]
    requires k in s' && s'[k] == WithKey(m, objs[0], k)
    requires StoredUnder(m, objs[1..], ks, s')
    ensures StoredUnder(m, objs, [k] + ks, s')
  {
    var keys := [k] + ks;
    forall i | 0 <= i < |keys|
      ensures keys[i] in s' && s'[keys[i]] == WithKey(m, objs[i], keys[i])
    {
      if i > 0 { assert keys[i] == ks[i - 1] && objs[i] == objs[1..][i - 1]; }
    }
    forall i | 0 <= i < |keys| && HasExplicitKey(m, objs[i])
      ensures keys[i] == objs[i][m.pk]
    {
      if i > 0 { assert keys[i] == ks[i - 1] && objs[i] == objs[1..][i - 1]; }
    }
  }

  lemma InsertedCons(m: TableMeta, s: Store, objs: seq<Row>, k: Value, ks: seq<Value>, s': Store)
    requires |objs| > 0 && k !in s && k != Null
    requires HasExplicitKey(m, objs[0]) ==> k == objs[0][m.pk]
    requires Inserted(m, s[k := WithKey(m, objs[0], k)], objs[1..], ks, s')
    ensures Inserted(m, s, objs, [k] + ks, s')
  {
    var s1 := s[k := WithKey(m, objs[0], k)];
    var keys := [k] + ks;
    assert FreshKeys(s, keys) && Distinct(keys) by {
      FreshCons(s, k, WithKey(m, objs[0], k), ks);
    }
    assert s'.Keys == s.Keys + KeySet(keys) by {
      KeySetCons(k, ks);
    }
    assert forall x :: x in s ==> s'[x] == s[x] by {
      assert forall x :: x in s ==> x in s1 && s1[x] == s[x];
    }
    assert StoredUnder(m, objs, keys, s') by {
      assert k in s1;
      StoredUnderCons(m, objs, k, ks, s, s');
    }
  }

  lemma {:induction false} KeySetSize(keys: seq<Value>)
    requires Distinct(keys)
    ensures |KeySet(keys)| == |keys|
    decreases |keys|
  {
    if |keys| > 0 {
      var rest := keys[1..];
      assert Distinct(rest) by {
        forall i, j | 0 <= i < j < |rest| ensures rest[i] != rest[j] {
          assert rest[i] == keys[i + 1] && rest[j] == keys[j + 1];
        }
      }
      KeySetSize(rest);
      assert keys == [keys[0]] + rest;
      KeySetCons(keys[0], rest);
      assert keys[0] !in KeySet(rest) by {
        forall i | 0 <= i < |rest| ensures rest[i] != keys[0] {
          assert rest[i] == keys[i + 1];
        }
      }
    }
  }

  /** Adding fresh, distinct keys grows the store by exactly their number. */
  lemma InsertedSize(m: TableMeta, s: Store, objs: seq<Row>, keys: seq<Value>, s': Store)
    requires Inserted(m, s, objs, keys, s')
    ensures |s'| == |s| + |keys|
  {
    KeySetSize(keys);
    assert s.Keys !! KeySet(keys) by {
      forall x | x in KeySet(keys) ensures x !in s {
        var i :| 0 <= i < |keys| && keys[i] == x;
      }
    }
    assert |s'.Keys| == |s.Keys| + |KeySet(keys)|;
  }

  /** Inserts the rows one after the other, as the single commit flushes
      them; a key already taken makes the commit fail as a whole. */
  function InsertAll(m: TableMeta, s: Store, objs: seq<Row>, alloc: Store -> int): (r: Result<(seq<Value>, Store)>)
    ensures r.Failure? ==> r.error == IntegrityError
    ensures r.Success? ==> Inserted(m, s, objs, r.value.0, r.value.1)
    decreases |objs|
  {
    if |objs| == 0 then Success(([], s))
    else
      var k := KeyFor(m, objs[0], s, alloc);
      if k in s then Failure(IntegrityError)
      else
        match InsertAll(m, s[k := WithKey(m, objs[0], k)], objs[1..], alloc)
        case Failure(e) => Failure(e)
        case Success(res) =>
          InsertedCons(m, s, objs, k, res.0, res.1);
          Success(([k] + res.0, res.1))
  }

  /** The objects the constructor builds, one per field-map, in order. */
  function BuildAll(m: TableMeta, payloads: seq<Payload>): (objs: seq<Row>)
    ensures |objs| == |payloads|
    ensures forall i :: 0 <= i < |payloads| ==> objs[i] == Build(m, payloads[i])
  {
    seq(|payloads|, i requires 0 <= i < |payloads| => Build(m, payloads[i]))
  }

  /** The serialised rows stored under `keys`, in that order. */
  function RowsAt(m: TableMeta, s: Store, keys: seq<Value>): (rows: seq<SRow>)
    requires forall i :: 0 <= i < |keys| ==> keys[i] in s && HasColumns(m, s[keys[i]])
    ensures |rows| == |keys|
    ensures forall i :: 0 <= i < |keys| ==> rows[i] == Serialize(m, s[keys[i]])
  {
    seq(|keys|, i requires 0 <= i < |keys| => Serialize(m, s[keys[i]]))
  }

  /** Row `i` of the POST reply is the new row stored under `k`: a key that
      was free, the submitted key when there was one, the submitted value in
      every other submitted column, NULL in every other column left out. */
  predicate PostedAs(m: TableMeta, s: Store, reply: Reply, p: Payload, i: int, k: Value) {
    && 0 <= i < |reply.body.rows|
    && k !in s
    && k in reply.store
    && HasColumns(m, reply.store[k])
    && reply.body.rows[i] == Serialize(m, reply.store[k])
    && (HasExplicitKey(m, p) ==> k == p[m.pk])
    && (forall c :: c in p && c != m.pk ==> c in reply.store[k] && reply.store[k][c] == p[c])
    && (forall c :: c in m.columns && c != m.pk && c !in p ==> c in reply.store[k] && reply.store[k][c] == Null)
  }

  /** What a successful POST promises: the old rows untouched, one new row
      per field-map and no other, each replied in the order sent, and the
      store still well formed. */
  predicate PostReply(m: TableMeta, s: Store, payloads: seq<Payload>, reply: Reply) {
    && ValidStore(m, reply.store)
    && reply.body.table == m.name
    && |reply.body.rows| == |payloads|
    && |reply.store| == |s| + |payloads|
    && (forall k :: k in s ==> k in reply.store && reply.store[k] == s[k])
    && (forall i :: 0 <= i < |payloads| ==> exists k :: k in reply.store && PostedAs(m, s, reply, payloads[i], i, k))
    && (forall k :: k in reply.store && k !in s ==>
          exists i :: 0 <= i < |payloads| && HasColumns(m, reply.store[k]) && reply.body.rows[i] == Serialize(m, reply.store[k]))
  }

  /** POST: builds one row per field-map (an unknown column fails before
      anything is added), inserts them all under one commit and replies
      with the stored rows in the order they were sent. */
  function Post(m: TableMeta, s: Store, payloads: seq<Payload>, alloc: Store -> int): (r: Result<Reply>)
    requires ValidMeta(m) && ValidStore(m, s)
    ensures (exists i :: 0 <= i < |payloads| && !KnownColumns(m, payloads[i])) ==> r == Failure(InvalidKeyword)
    ensures r.Failure? ==> r.error == InvalidKeyword || r.error == IntegrityError
    ensures r.Success? ==> PostReply(m, s, payloads, r.value)
  {
    if exists i :: 0 <= i < |payloads| && !KnownColumns(m, payloads[i]) then Failure(InvalidKeyword)
    else
      var objs := BuildAll(m, payloads);
      match InsertAll(m, s, objs, alloc)
      case Failure(e) => Failure(e)
      case Success(res) =>
        InsertedValid(m, s, objs, res.0, res.1);
        var reply := Reply(Envelope(m.name, RowsAt(m, res.1, res.0)), res.1);
        PostReplyFacts(m, s, payloads, objs, res.0, reply);
        Success(reply)
  }

  lemma BuiltRowFits(m: TableMeta, row: Row, k: Value)
    requires ValidMeta(m) && row.Keys == ColumnSet(m)
    ensures RowFits(m, k, WithKey(m, row, k))
    ensures HasColumns(m, WithKey(m, row, k))
  {
    assert m.pk in ColumnSet(m);
  }

  /** Inserting rows that have the table's columns keeps the store well formed. */
  lemma InsertedValid(m: TableMeta, s: Store, objs: seq<Row>, keys: seq<Value>, s': Store)
    requires ValidMeta(m) && ValidStore(m, s)
    requires forall i :: 0 <= i < |objs| ==> objs[i].Keys == ColumnSet(m)
    requires Inserted(m, s, objs, keys, s')
    ensures ValidStore(m, s')
    ensures forall i :: 0 <= i < |keys| ==> keys[i] in s' && HasColumns(m, s'[keys[i]])
  {
    forall i | 0 <= i < |keys|
      ensures keys[i] in s' && RowFits(m, keys[i], s'[keys[i]]) && HasColumns(m, s'[keys[i]])
    {
      BuiltRowFits(m, objs[i], keys[i]);
    }
    forall k | k in s'
      ensures k != Null && RowFits(m, k, s'[k])
    {
      if k !in s {
        assert k in KeySet(keys);
        var i :| 0 <= i < |keys| && keys[i] == k;
      }
    }
  }

  lemma PostedAsFacts(m: TableMeta, s: Store, p: Payload, obj: Row, reply: Reply, i: int, k: Value)
    requires ValidMeta(m) && KnownColumns(m, p) && obj == Build(m, p)
    requires 0 <= i < |reply.body.rows|
    requires k !in s && k in reply.store && reply.store[k] == WithKey(m, obj, k)
    requires HasExplicitKey(m, p) ==> k == obj[m.pk]
    requires HasColumns(m, reply.store[k]) && reply.body.rows[i] == Serialize(m, reply.store[k])
    ensures PostedAs(m, s, reply, p, i, k)
  {
    var row := reply.store[k];
    forall c | c in p && c != m.pk
      ensures c in row && row[c] == p[c]
    {
      assert c in ColumnSet(m);
    }
    forall c | c in m.columns && c != m.pk && c !in p
      ensures c in row && row[c] == Null
    {
      assert c in ColumnSet(m);
    }
    if HasExplicitKey(m, p) {
      assert m.pk in ColumnSet(m);
    }
  }

  lemma PostReplyFacts(m: TableMeta, s: Store, payloads: seq<Payload>, objs: seq<Row>, keys: seq<Value>, reply: Reply)
    requires ValidMeta(m) && ValidStore(m, s) && ValidStore(m, reply.store)
    requires forall i :: 0 <= i < |payloads| ==> KnownColumns(m, payloads[i])
    requires objs == BuildAll(m, payloads)
    requires Inserted(m, s, objs, keys, reply.store)
    requires forall i :: 0 <= i < |keys| ==> keys[i] in reply.store && HasColumns(m, reply.store[keys[i]])
    requires reply.body == Envelope(m.name, RowsAt(m, reply.store, keys))
    ensures PostReply(m, s, payloads, reply)
  {
    var s' := reply.store;
    InsertedSize(m, s, objs, keys, s');
    forall i | 0 <= i < |payloads|
      ensures exists k :: k in reply.store && PostedAs(m, s, reply, payloads[i], i, k)
    {
      var p := payloads[i];
      if HasExplicitKey(m, p) {
        assert HasExplicitKey(m, objs[i]) by { assert m.pk in ColumnSet(m); }
      }
      PostedAsFacts(m, s, p, objs[i], reply, i, keys[i]);
    }
    forall k | k in s' && k !in s
      ensures exists i :: 0 <= i < |payloads| && HasColumns(m, s'[k]) && reply.body.rows[i] == Serialize(m, s'[k])
    {
      assert k in KeySet(keys);
      var i :| 0 <= i < |keys| && keys[i] == k;
      assert reply.body.rows[i] == Serialize(m, s'[k]);
    }
  }

  /** The row after PUT: each non-key column the payload names takes the
      payload's value; a field that is not a column is set on the object
      only, so the stored row never sees it. */
  function Patch(m: TableMeta, row: Row, p: Payload): (r: Row)
    ensures r.Keys == row.Keys
    ensures m.pk in row ==> r[m.pk] == row[m.pk]
    ensures forall c :: c in row && c != m.pk && c in p ==> r[c] == p[c]
    ensures forall c :: c in row && c !in p ==> r[c] == row[c]
  {
    map c | c in row :: if c in p && c != m.pk then p[c] else row[c]
  }

  /** `s'` holds the same keys as `s`, and every row but the one under `id`
      is as it was. */
  predicate OnlyRowChanged(s: Store, id: Value, s': Store) {
    && s'.Keys == s.Keys
    && (forall k :: k in s && k != id ==> s'[k] == s[k])
  }

  /** `row` is `before` patched by `p`: it has the table's columns, each
      non-key column the payload names holds the payload's value, and every
      column the payload leaves out holds what it held before. */
  predicate PatchedRow(m: TableMeta, before: Row, p: Payload, row: Row) {
    && HasColumns(m, row)
    && (forall c :: c in m.columns && c != m.pk && c in p ==> row[c] == p[c])
    && (forall c :: c in m.columns && c !in p ==> c in before && row[c] == before[c])
  }

  /** What a successful PUT promises: the target is the row named by the
      payload's key field; only its non-key columns present in the payload
      change; every other row, the key and every omitted column stay. */
  predicate PutReply(m: TableMeta, s: Store, p: Payload, reply: Reply) {
    && m.pk in p
    && p[m.pk] in s
    && p[m.pk] in reply.store
    && ValidStore(m, reply.store)
    && OnlyRowChanged(s, p[m.pk], reply.store)
    && PatchedRow(m, s[p[m.pk]], p, reply.store[p[m.pk]])
    && reply.store[p[m.pk]][m.pk] == p[m.pk]
    && reply.body == Envelope(m.name, [Serialize(m, reply.store[p[m.pk]])])
  }

  /** PUT: a partial update of the row whose key the payload's key field
      holds. A payload without that field fails; an unknown key is NotFound. */
  function Put(m: TableMeta, s: Store, p: Payload): (r: Result<Reply>)
    requires ValidMeta(m) && ValidStore(m, s)
    ensures m.pk !in p ==> r == Failure(MissingField(m.pk))
    ensures m.pk in p ==> (r.Success? <==> p[m.pk] in s)
    ensures m.pk in p && r.Failure? ==> r.error == NotFound
    ensures r.Success? ==> PutReply(m, s, p, r.value)
  {
    if m.pk !in p then Failure(MissingField(m.pk))
    else
      match GetObject(s, p[m.pk])
      case Failure(e) => Failure(e)
      case Success(row) =>
        PutReplyFacts(m, s, p);
        PutReplyOf(m, s, p)
  }

  /** The reply PUT builds once the target row is found. */
  function PutReplyOf(m: TableMeta, s: Store, p: Payload): (r: Result<Reply>)
    requires ValidMeta(m) && ValidStore(m, s)
    requires m.pk in p && p[m.pk] in s
  {
    var id := p[m.pk];
    var row' := Patch(m, s[id], p);
    PatchFits(m, s, p);
    Success(Reply(Envelope(m.name, [Serialize(m, row')]), s[id := row']))
  }

  /** Replacing a stored row by one that fits its key keeps the store well
      formed. */
  lemma ReplaceRowValid(m: TableMeta, s: Store, id: Value, row: Row)
    requires ValidStore(m, s) && id in s
    requires RowFits(m, id, row)
    ensures ValidStore(m, s[id := row])
  {
  }

  lemma PatchFits(m: TableMeta, s: Store, p: Payload)
    requires ValidMeta(m) && ValidStore(m, s)
    requires m.pk in p && p[m.pk] in s
    ensures RowFits(m, p[m.pk], Patch(m, s[p[m.pk]], p))
    ensures ValidStore(m, s[p[m.pk] := Patch(m, s[p[m.pk]], p)])
    ensures PatchedRow(m, s[p[m.pk]], p, Patch(m, s[p[m.pk]], p))
  {
    var id := p[m.pk];
    var before := s[id];
    var row := Patch(m, before, p);
    assert RowFits(m, id, before);
    assert forall c :: c in m.columns ==> c in ColumnSet(m);
    assert RowFits(m, id, row);
    ReplaceRowValid(m, s, id, row);
  }

  /** The store a PUT commits: only the target row changed, and it still
      fits its key. */
  lemma PutStoreFacts(m: TableMeta, s: Store, p: Payload)
    requires ValidMeta(m) && ValidStore(m, s)
    requires m.pk in p && p[m.pk] in s
    ensures PutReplyOf(m, s, p).Success?
    ensures var st := PutReplyOf(m, s, p).value.store;
      && p[m.pk] in st
      && ValidStore(m, st)
      && OnlyRowChanged(s, p[m.pk], st)
      && RowFits(m, p[m.pk], st[p[m.pk]])
  {
    PatchFits(m, s, p);
    var id := p[m.pk];
    assert PutReplyOf(m, s, p).value.store == s[id := Patch(m, s[id], p)];
  }

  /** The row a PUT commits and replies with is the target patched by the
      payload. */
  lemma PutRowFacts(m: TableMeta, s: Store, p: Payload)
    requires ValidMeta(m) && ValidStore(m, s)
    requires m.pk in p && p[m.pk] in s
    ensures PutReplyOf(m, s, p).Success?
    ensures var r := PutReplyOf(m, s, p).value;
      && p[m.pk] in r.store
      && PatchedRow(m, s[p[m.pk]], p, r.store[p[m.pk]])
      && r.body == Envelope(m.name, [Serialize(m, r.store[p[m.pk]])])
  {
    PatchFits(m, s, p);
    var id := p[m.pk];
    assert PutReplyOf(m, s, p).value.store[id] == Patch(m, s[id], p);
  }

  lemma PutReplyFacts(m: TableMeta, s: Store, p: Payload)
    requires ValidMeta(m) && ValidStore(m, s)
    requires m.pk in p && p[m.pk] in s
    ensures PutReplyOf(m, s, p).Success? && PutReply(m, s, p, PutReplyOf(m, s, p).value)
  {
    PutStoreFacts(m, s, p);
    PutRowFacts(m, s, p);
  }

  /** DELETE: removes the row under `id` and replies with it as it was just
      before; an unknown key is NotFound. */
  function Delete(m: TableMeta, s: Store, id: Value): (r: Result<Reply>)
    requires ValidStore(m, s)
    ensures r.Success? <==> id in s
    ensures r.Failure? ==> r.error == NotFound
    ensures r.Success? ==> HasColumns(m, s[id]) && r.value.body == Envelope(m.name, [Serialize(m, s[id])])
    ensures r.Success? ==> r.value.store.Keys == s.Keys - {id}
    ensures r.Success? ==> forall k :: k in r.value.store ==> r.value.store[k] == s[k]
    ensures r.Success? ==> ValidStore(m, r.value.store)
  {
    match GetObject(s, id)
    case Failure(e) => Failure(e)
    case Success(row) =>
      StoredRowHasColumns(m, s, id);
      Success(Reply(Envelope(m.name, [Serialize(m, row)]), s - {id}))
  }
}

=== FILE: schema.dfy ===
/** What start-up derives from the reflected schema: the table order, one
    metadata record per table (with its single primary-key column), and the
    index listing every table. */
module Schema {
  import opened Wrappers
  import opened Order

  /** A class automap mapped from a reflected table: its class name, its
      columns in declaration order, and the columns of its primary key.
      Automap maps no table without a primary key and no pure link table, so
      those never appear here. */
  datatype TableClass = TableClass(name: string, columns: seq<string>, pkColumns: seq<string>)

  /** The metadata a resource handler is parameterised by. */
  datatype TableMeta = TableMeta(name: string, columns: seq<string>, pk: string)

  /** One entry of the index: a table and its collection path. */
  datatype IndexEntry = IndexEntry(name: string, url: string)

  function NameOf(t: TableClass): string { t.name }

  /** No element occurs twice. */
  predicate Distinct<T(==)>(s: seq<T>) {
    forall i, j :: 0 <= i < j < |s| ==> s[i] != s[j]
  }

  /** Reflection reports primary-key columns among the table's columns, and
      no column twice. */
  predicate WellFormedClass(t: TableClass) {
    Distinct(t.columns) && forall c :: c in t.pkColumns ==> c in t.columns
  }

  /** A handler can work with the metadata: the key is one of the columns and
      no column appears twice. */
  predicate ValidMeta(m: TableMeta) {
    m.pk in m.columns && Distinct(m.columns)
  }

  /** The single primary-key column; any other number of key columns stops
      start-up rather than being guessed at. */
  function GetPk(t: TableClass): (r: Result<string>)
    ensures r.Success? <==> |t.pkColumns| == 1
    ensures r.Success? ==> r.value in t.pkColumns
    ensures r.Failure? ==> r.error == SchemaError(t.name)
  {
    if |t.pkColumns| == 1 then Success(t.pkColumns[0]) else Failure(SchemaError(t.name))
  }

  /** The table classes sorted by class name. */
  function TableOrder(classes: seq<TableClass>): (r: seq<TableClass>)
    ensures |r| == |classes|
    ensures SortedBy(r, NameOf)
    ensures multiset(r) == multiset(classes)
  {
    SortBy(classes, NameOf)
  }

  /** One handler's metadata per table, in the given order; the first table
      without exactly one key column aborts the whole start-up. */
  function MakeMetas(ts: seq<TableClass>): (r: Result<seq<TableMeta>>)
    ensures r.Success? <==> forall i :: 0 <= i < |ts| ==> |ts[i].pkColumns| == 1
    ensures r.Success? ==> |r.value| == |ts|
    ensures r.Success? ==> forall i :: 0 <= i < |ts| ==>
      && r.value[i].name == ts[i].name
      && r.value[i].columns == ts[i].columns
      && r.value[i].pk in ts[i].pkColumns
    ensures r.Failure? ==> exists i :: 0 <= i < |ts| && r.error == SchemaError(ts[i].name) && |ts[i].pkColumns| != 1
                                 && forall j :: 0 <= j < i ==> |ts[j].pkColumns| == 1
    decreases |ts|
  {
    if |ts| == 0 then Success([])
    else
      match GetPk(ts[0])
      case Failure(e) => Failure(e)
      case Success(pk) =>
        match MakeMetas(ts[1..])
        case Failure(e) => Failure(e)
        case Success(rest) => Success([TableMeta(ts[0].name, ts[0].columns, pk)] + rest)
  }

  /** Start-up: sort the reflected tables by name and build every handler's
      metadata. */
  function Discover(classes: seq<TableClass>): (r: Result<seq<TableMeta>>)
  {
    MakeMetas(TableOrder(classes))
  }

  /** The index: one entry per table, in the order given, each pointing at the
      table's collection path. */
  function Index(tables: seq<TableClass>): (r: seq<IndexEntry>)
    ensures |r| == |tables|
    ensures forall i :: 0 <= i < |r| ==> r[i].name == tables[i].name && r[i].url == "/" + tables[i].name
  {
    seq(|tables|, i requires 0 <= i < |tables| => IndexEntry(tables[i].name, "/" + tables[i].name))
  }

  function EntryName(e: IndexEntry): string { e.name }

  /** Start-up succeeds exactly when every mapped class has one key column; then
      there is one handler per table, in ascending name order, each bound to
      that table's columns and key, and every handler's metadata is usable. */
  lemma DiscoverSpec(classes: seq<TableClass>)
    requires forall i :: 0 <= i < |classes| ==> WellFormedClass(classes[i])
    ensures Discover(classes).Success? <==> forall t :: t in classes ==> |t.pkColumns| == 1
    ensures Discover(classes).Success? ==>
      var ms := Discover(classes).value;
      && |ms| == |classes|
      && (forall i, j :: 0 <= i < j < |ms| ==> StrLe(ms[i].name, ms[j].name))
      && (forall i :: 0 <= i < |ms| ==> ValidMeta(ms[i]))
      && (forall i :: 0 <= i < |ms| ==> exists t :: t in classes && t.name == ms[i].name && t.columns == ms[i].columns && t.pkColumns == [ms[i].pk])
  {
    var ts := TableOrder(classes);
    assert forall t :: t in ts <==> t in classes by {
      forall t ensures t in ts <==> t in classes {
        assert t in ts <==> t in multiset(ts);
        assert t in classes <==> t in multiset(classes);
      }
    }
    var r := MakeMetas(ts);
    if r.Success? {
      forall i | 0 <= i < |ts|
        ensures ValidMeta(r.value[i])
        ensures exists t :: t in classes && t.name == r.value[i].name && t.columns == r.value[i].columns && t.pkColumns == [r.value[i].pk]
      {
        assert ts[i] in classes;
        assert ts[i].pkColumns == [ts[i].pkColumns[0]];
      }
    } else {
      var i :| 0 <= i < |ts| && |ts[i].pkColumns| != 1;
      assert ts[i] in classes;
    }
  }

  /** The index lists every table once, sorted by table name, whatever order
      reflection enumerated them in. */
  lemma IndexSpec(classes: seq<TableClass>)
    ensures |Index(TableOrder(classes))| == |classes|
    ensures SortedBy(Index(TableOrder(classes)), EntryName)
    ensures forall t :: t in classes ==> IndexEntry(t.name, "/" + t.name) in Index(TableOrder(classes))
    ensures forall e :: e in Index(TableOrder(classes)) ==> exists t :: t in classes && e == IndexEntry(t.name, "/" + t.name)
  {
    var ts := TableOrder(classes);
    var ix := Index(ts);
    forall t | t in classes
      ensures IndexEntry(t.name, "/" + t.name) in ix
    {
      assert t in multiset(ts);
      var i :| 0 <= i < |ts| && ts[i] == t;
      assert ix[i] == IndexEntry(t.name, "/" + t.name);
    }
    forall e | e in ix
      ensures exists t :: t in classes && e == IndexEntry(t.name, "/" + t.name)
    {
      var i :| 0 <= i < |ix| && ix[i] == e;
      assert ts[i] in multiset(classes);
    }
  }

  /** Start-up and the index depend only on which tables exist, not on the
      order reflection reports them in (class names are unique). */
  lemma DiscoverDeterministic(a: seq<TableClass>, b: seq<TableClass>)
    requires multiset(a) == multiset(b)
    requires KeyInjective(a, NameOf)
    ensures Discover(a) == Discover(b)
    ensures Index(TableOrder(a)) == Index(TableOrder(b))
  {
    SortByPermutationInvariant(a, b, NameOf);
  }
}

=== FILE: serializer.dfy ===
/** The row serialiser: a stored row becomes a mapping from each of the
    table's column names, in column order, to a value of a primitive kind. */
module Serializer {
  import opened Wrappers
  import opened Values
  import opened Schema

  /** A stored row: column name to value. */
  type Row = map<string, Value>

  /** A serialised row, as the ordered mapping Python builds: column names
      with their values, in insertion order. */
  type SRow = seq<(string, Value)>

  function KeysOf(r: SRow): (ks: seq<string>)
    ensures |ks| == |r|
    ensures forall i :: 0 <= i < |r| ==> ks[i] == r[i].0
  {
    seq(|r|, i requires 0 <= i < |r| => r[i].0)
  }

  /** `r[k]` for a mapping: the value of the first entry named `k`, or None
      when no entry has that name. */
  function Lookup(r: SRow, k: string): (v: Option<Value>)
    ensures v.None? <==> forall i :: 0 <= i < |r| ==> r[i].0 != k
    ensures v.Some? ==> exists i :: 0 <= i < |r| && r[i] == (k, v.value) && forall j :: 0 <= j < i ==> r[j].0 != k
    decreases |r|
  {
    if |r| == 0 then None
    else if r[0].0 == k then Some(r[0].1)
    else Lookup(r[1..], k)
  }

  /** The row holds a value for every column of the table. */
  predicate HasColumns(m: TableMeta, row: Row) {
    forall c :: c in m.columns ==> c in row
  }

  /** The table's columns, in order, each with the row's value kept when it is
      a str, int, float or bool and replaced by its repr otherwise. */
  function Serialize(m: TableMeta, row: Row): (r: SRow)
    requires HasColumns(m, row)
    ensures KeysOf(r) == m.columns
    ensures forall i :: 0 <= i < |r| ==> IsPrimitive(r[i].1)
    ensures forall i :: 0 <= i < |r| && IsPrimitive(row[m.columns[i]]) ==> r[i].1 == row[m.columns[i]]
    ensures forall i :: 0 <= i < |r| && !IsPrimitive(row[m.columns[i]]) ==> r[i].1 == Str(Repr(row[m.columns[i]]))
  {
    seq(|m.columns|, i requires 0 <= i < |m.columns| => (m.columns[i], Convert(row[m.columns[i]])))
  }

  /** Looking a column up in the serialised row gives the stored value,
      converted; a name that is not a column is not there. */
  lemma {:induction false} SerializeLookup(m: TableMeta, row: Row, c: string)
    requires Schema.Distinct(m.columns)
    requires HasColumns(m, row)
    ensures c in m.columns ==> Lookup(Serialize(m, row), c) == Some(Convert(row[c]))
    ensures c !in m.columns ==> Lookup(Serialize(m, row), c) == None
  {
    var r := Serialize(m, row);
    assert forall i :: 0 <= i < |r| ==> r[i].0 == m.columns[i] by {
      assert KeysOf(r) == m.columns;
    }
    if c in m.columns {
      var v := Lookup(r, c);
      assert v.Some?;
      var i :| 0 <= i < |r| && r[i] == (c, v.value);
      var j :| 0 <= j < |m.columns| && m.columns[j] == c;
      assert i == j;
    }
  }

  /** The stored row is determined by its serialisation whenever every value
      is primitive: serialising loses nothing but non-primitive structure. */
  lemma SerializeInjectiveOnPrimitives(m: TableMeta, a: Row, b: Row)
    requires HasColumns(m, a) && HasColumns(m, b)
    requires forall c :: c in m.columns ==> IsPrimitive(a[c]) && IsPrimitive(b[c])
    requires Serialize(m, a) == Serialize(m, b)
    ensures forall c :: c in m.columns ==> a[c] == b[c]
  {
    forall c | c in m.columns
      ensures a[c] == b[c]
    {
      var i :| 0 <= i < |m.columns| && m.columns[i] == c;
      assert Serialize(m, a)[i].1 == Serialize(m, b)[i].1;
    }
  }
}

=== FILE: text.dfy ===
/** Joining fields with a separator, as `print(*fields, sep=...)` writes
    them, and `str.split`, which reads them back. */
module Text {

  /** The fields with `sep` between each neighbouring pair. */
  function Join(parts: seq<string>, sep: char): string
    decreases |parts|
  {
    if |parts| == 0 then ""
    else if |parts| == 1 then parts[0]
    else parts[0] + [sep] + Join(parts[1..], sep)
  }

  /** `s.split(sep)`: the pieces between occurrences of `sep`; there is always
      at least one piece, and the empty string splits into one empty piece. */
  function Split(s: string, sep: char): (r: seq<string>)
    ensures |r| >= 1
    decreases |s|
  {
    if |s| == 0 then [""]
    else if s[0] == sep then [""] + Split(s[1..], sep)
    else
      var rest := Split(s[1..], sep);
      [[s[0]] + rest[0]] + rest[1..]
  }

  /** One `print` per line: each line followed by a line break. */
  function Lines(lines: seq<string>): string
    decreases |lines|
  {
    if |lines| == 0 then "" else lines[0] + "\n" + Lines(lines[1..])
  }

  lemma {:induction false} SplitWithoutSeparator(p: string, sep: char)
    requires sep !in p
    ensures Split(p, sep) == [p]
    decreases |p|
  {
    if |p| > 0 {
      SplitWithoutSeparator(p[1..], sep);
      assert p == [p[0]] + p[1..];
    }
  }

  lemma {:induction false} SplitAtSeparator(p: string, sep: char, rest: string)
    requires sep !in p
    ensures Split(p + [sep] + rest, sep) == [p] + Split(rest, sep)
    decreases |p|
  {
    var s := p + [sep] + rest;
    if |p| == 0 {
      assert s[1..] == rest;
    } else {
      assert s[0] == p[0];
      assert s[1..] == p[1..] + [sep] + rest;
      SplitAtSeparator(p[1..], sep, rest);
      assert p == [p[0]] + p[1..];
    }
  }

  /** Splitting joined fields gives the fields back, provided none of them
      holds the separator. */
  lemma {:induction false} SplitJoin(parts: seq<string>, sep: char)
    requires |parts| >= 1
    requires forall i :: 0 <= i < |parts| ==> sep !in parts[i]
    ensures Split(Join(parts, sep), sep) == parts
    decreases |parts|
  {
    if |parts| == 1 {
      SplitWithoutSeparator(parts[0], sep);
    } else {
      SplitJoin(parts[1..], sep);
      SplitAtSeparator(parts[0], sep, Join(parts[1..], sep));
      assert parts == [parts[0]] + parts[1..];
    }
  }

  /** Terminated lines are the lines joined by line breaks, plus a final break. */
  lemma {:induction false} LinesAsJoin(lines: seq<string>)
    ensures Lines(lines) == Join(lines + [""], '\n')
    decreases |lines|
  {
    if |lines| > 0 {
      LinesAsJoin(lines[1..]);
      assert (lines + [""])[1..] == lines[1..] + [""];
    }
  }

  /** `Lines(lines).split('\n')` gives the lines back followed by one empty
      piece, provided no line holds a line break. */
  lemma SplitLines(lines: seq<string>)
    requires forall i :: 0 <= i < |lines| ==> '\n' !in lines[i]
    ensures Split(Lines(lines), '\n') == lines + [""]
  {
    LinesAsJoin(lines);
    SplitJoin(lines + [""], '\n');
  }
}

=== FILE: values.dfy ===
/** Column values as the service sees them, and their two text forms:
    `repr` (used by the row serialiser) and `str` (used by the CSV renderer). */
module Values {
  import opened Wrappers

  /** A value read from a column or a JSON payload. A float is carried as the
      text Python prints for it, since nothing here computes with floats; any
      other runtime type (dates, decimals, bytes, ...) is carried as its repr. */
  datatype Value =
    | Str(s: string)
    | Int(i: int)
    | Float(text: string)
    | Bool(b: bool)
    | Null
    | Other(text: string)

  /** The kinds the serialiser keeps as they are: str, int, float and bool. */
  predicate IsPrimitive(v: Value) {
    v.Str? || v.Int? || v.Float? || v.Bool?
  }

  /** `repr` of a value the serialiser does not keep. */
  function Repr(v: Value): string
    requires !IsPrimitive(v)
  {
    match v
    case Null => "None"
    case Other(t) => t
  }

  /** The serialiser's per-value step: keep a primitive, replace anything
      else by its repr. */
  function Convert(v: Value): (r: Value)
    ensures IsPrimitive(r)
    ensures IsPrimitive(v) ==> r == v
    ensures !IsPrimitive(v) ==> r == Str(Repr(v))
  {
    if IsPrimitive(v) then v else Str(Repr(v))
  }

  /** Converting twice changes nothing more: the serialiser's output is a
      fixed point of the serialiser. */
  lemma ConvertIdempotent(v: Value)
    ensures Convert(Convert(v)) == Convert(v)
  {
  }

  function DigitChar(d: nat): (c: char)
    requires d < 10
    ensures '0' <= c <= '9'
    ensures c as int - '0' as int == d
  {
    "0123456789"[d]
  }

  predicate IsDigits(s: string) {
    forall i :: 0 <= i < |s| ==> '0' <= s[i] <= '9'
  }

  /** Decimal digits of a natural number, most significant first, no leading zero. */
  function NatText(n: nat): (r: string)
    ensures |r| >= 1 && IsDigits(r)
    ensures n >= 10 ==> r[0] != '0'
    decreases n
  {
    if n < 10 then [DigitChar(n)] else NatText(n / 10) + [DigitChar(n % 10)]
  }

  /** `str` of an int: an optional minus sign, then the decimal digits. */
  function IntText(i: int): string {
    if i < 0 then "-" + NatText(-i) else NatText(i)
  }

  /** `str` of a value, as `print` writes it. For `Other` this is the carried
      repr text, which can differ from `str` (`Decimal('0.99')` prints
      `0.99`); rendered rows are serialised and hold no `Other`, so the CSV
      output never meets that case. */
  function Printed(v: Value): string {
    match v
    case Str(s) => s
    case Int(i) => IntText(i)
    case Float(t) => t
    case Bool(b) => if b then "True" else "False"
    case Null => "None"
    case Other(t) => t
  }

  /** The number a string of decimal digits denotes. */
  function DigitsValue(s: string): nat
    requires IsDigits(s)
    decreases |s|
  {
    if |s| == 0 then 0 else DigitsValue(s[..|s| - 1]) * 10 + (s[|s| - 1] as int - '0' as int)
  }

  /** Reads back what `IntText` writes: an optional minus sign, then decimal digits. */
  function ParseInt(s: string): Option<int> {
    if |s| >= 2 && s[0] == '-' && IsDigits(s[1..]) then Some(0 - DigitsValue(s[1..]) as int)
    else if |s| >= 1 && IsDigits(s) then Some(DigitsValue(s))
    else None
  }

  lemma {:induction false} NatTextValue(n: nat)
    ensures DigitsValue(NatText(n)) == n
    decreases n
  {
    if n >= 10 {
      NatTextValue(n / 10);
      var t := NatText(n);
      assert t == NatText(n / 10) + [DigitChar(n % 10)];
      assert t[..|t| - 1] == NatText(n / 10);
    }
  }

  lemma ParseDigits(d: string)
    requires |d| >= 1 && IsDigits(d)
    ensures ParseInt(d) == Some(DigitsValue(d))
  {
    assert d[0] != '-';
  }

  lemma ParseNegative(d: string)
    requires |d| >= 1 && IsDigits(d)
    ensures ParseInt("-" + d) == Some(0 - DigitsValue(d))
  {
    assert ("-" + d)[1..] == d;
  }

  /** The decimal text of an int reads back as the same int. */
  lemma IntTextRoundTrip(i: int)
    ensures ParseInt(IntText(i)) == Some(i)
  {
    var n: nat := if i < 0 then -i else i;
    var d := NatText(n);
    NatTextValue(n);
    if i < 0 {
      assert IntText(i) == "-" + d;
      ParseNegative(d);
    } else {
      assert IntText(i) == d;
      ParseDigits(d);
    }
  }

  /** The text of an int holds neither a comma nor a line break, so an int
      field never disturbs the CSV layout. */
  lemma IntTextHasNoDelimiter(i: int)
    ensures ',' !in IntText(i) && '\n' !in IntText(i)
  {
    var d := NatText(if i < 0 then -i else i);
    assert forall k :: 0 <= k < |d| ==> d[k] != ',' && d[k] != '\n';
  }

  /** A str, a float or any other value carries text of its own; an int, a
      bool or NULL is printed by a fixed rule. */
  predicate CarriesText(v: Value) {
    v.Str? || v.Float? || v.Other?
  }

  /** A value printed by a fixed rule holds neither a comma nor a line break. */
  lemma PrintedWithoutText(v: Value)
    requires !CarriesText(v)
    ensures ',' !in Printed(v) && '\n' !in Printed(v)
  {
    if v.Int? {
      IntTextHasNoDelimiter(v.i);
    }
  }
}

=== FILE: wrappers.dfy ===
/** Option and Result, and the failures a request or the start-up can end in. */
module Wrappers {

  datatype Option<+T> = None | Some(value: T)

  datatype Result<+T> = Success(value: T) | Failure(error: Error)

  /** Every way the service can fail. Only `NotFound` is turned into a 404;
      the start-up failure stops the process and the rest surface as a 500. */
  datatype Error =
    | SchemaError(table: string)   // a table without exactly one primary-key column
    | NotFound                     // no row has the requested primary-key value
    | MissingField(field: string)  // a payload lacks the primary-key field
    | InvalidKeyword               // a payload names a column the table does not have
    | IntegrityError               // the commit is refused: a primary-key value is taken
    | EmptyRows                    // the CSV renderer was given no row to take keys from
    | MissingKey(key: string)      // a later CSV row lacks one of the first row's keys
}
